=== FILE: README.md ===
# A verified model of the minifier's analysis and literal-compaction layer

This project models `js/util.go` of the JavaScript minifier. That file is the layer the
minifier consults while it prints a parsed program. It covers four things:

- **Precedence.** It holds five fixed operator tables and `exprPrec`, which give the
  precedence level at which an expression node can be printed without parentheses.
- **Constant analysis.** `isTrue`, `isFalse`, `isUndefined`, `isFalsy`, `isTruthy`,
  `isEqualExpr` and `isBooleanExpr` say what can be known about an expression without
  evaluating it.
- **Statement classification.** `isEmptyStmt`, `isReturnThrowStmt` and
  `hasReturnThrowStmt`.
- **Literal compaction.** `minifyString` removes unnecessary escapes from a string
  literal in place. `binaryNumber` and `octalNumber` rewrite a `0b…` or `0o…` literal as
  decimal digits.

The files follow that structure:

| file | module | contents |
|---|---|---|
| `bytes.dfy` | `Bytes` | bytes, the ASCII constants the code compares against, `isHexDigit`, the two-digit hex decoder |
| `tokens.dfy` | `Tokens` | the token kinds the code inspects and the ordered precedence levels |
| `ast.dfy` | `Ast` | expression and statement nodes, with only the variants the code distinguishes |
| `precedence.dfy` | `Precedence` | the five tables and `exprPrec` |
| `statements.dfy` | `Statements` | the statement classifiers |
| `constants.dfy` | `Constants` | the constant-value analysers, proved against a reference truth value |
| `string_literal.dfy` | `StringLiteral` | `minifyString`: escape rules, the scan as a function, the in-place algorithm, value preservation |
| `radix.dfy` | `Radix` | `binaryNumber` and `octalNumber` up to the decimal digit buffer |

Four groups of operations are proved against a separate definition of what they
compute. The precedence tables have no meaning beyond the tables themselves: they are
related to each other and to the order of the levels instead.

- **Constant analysers.** Their reference is `Constants.Truth`, a recursive reading of
  ToBoolean (section 7.1.2 of ECMA-262) on the literals, `!`, parentheses and the
  spellings of undefined. A literal's truth is read from the value its token spells.
  A number is zero when all its digits are 0, and a string is empty when its body
  decodes to nothing. This reading does not use the short list of spellings the
  analysers compare against. `isFalsy` and `isTruthy` are proved to be known exactly
  when `Truth` is known. They are proved to agree with it except on the falsy literals
  that list misses, where their verdict is inverted.
- **Statement emptiness.** `isEmptyStmt` is proved equal to "every leaf of the statement
  tree is absent or `;`".
- **The string minifier.** Its reference is `StringLiteral.Rewrite`. This function scans
  the body left to right. An escape it replaces is pushed back in front of the rest of
  the body and scanned again, as the in-place code does when it resumes on the bytes it
  just wrote. `StringLiteral.MinifyString` is the two-cursor in-place loop. It is proved
  to return exactly the quotes around `Rewrite` of the body. `StringLiteral.Decode`
  gives the value of a body under the escape grammar of the String Literals section of
  ECMA-262 (12.9.4 in the 2023 edition). The source text is UTF-8. An ASCII byte, and a
  `\x` or octal escape, stand for one code unit. A raw byte of 0x80 or above is a piece
  of the encoding of one character. `Rewrite` is proved to keep that value when three
  conditions hold:
  - the value contains no malformed `\x`;
  - no NUL in the value is directly followed by an octal digit;
  - no code unit is 0x80 or above.

  Without the second condition the value can change. Two lemmas exhibit this:
  - `"\x001"` becomes a raw 0x01 byte;
  - `"\0\x31"` becomes `"\01"`.

  Both literals stand for NUL followed by `1`. Without the third condition, `"\xe9"`
  becomes the raw byte 0xE9. In UTF-8 text that byte does not spell `é`.
  `StringLiteral.RewriteCorrected` keeps such escapes. It is proved to keep the value
  under the first two conditions alone.

  Minifying twice is proved to be minifying once under the first two conditions: every
  escape left in the output is one a second pass keeps. Without the second condition a
  second pass can change the result: `"\0\x31"` becomes `"\01"`, and then the raw byte
  0x01.
- **The radix converters.** They are proved to produce the canonical decimal spelling
  of the literal's value, and the value is proved never to reach 2^63.

Two details of the code that the model follows as written:

- **Right-operand minimum of `&&`, `||` and `??`.** The table at `js/util.go:162-164`
  gives `&&` its own level, `OpAnd`, `||` its own level, `OpOr`, and `??` the `OpOr`
  level. None of the three is at the assignment level.
- **Where the radix converters write the digits.** After the value is accumulated, the
  code cuts the buffer to `b[:i+1]` with `i` one less than the number of decimal digits,
  and fills it from index `i` down to 0, last digit first (`js/util.go:458-464`). The
  digits therefore occupy the front of the buffer.

## Model

| member | source | states |
|---|---|---|
| Precedence.UnaryOpPrec | js/util.go:12-25 | a unary token has a level exactly when it is a unary operator; the level is Update exactly for the four increment/decrement forms and Unary for the rest |
| Precedence.BinaryOpPrec | js/util.go:27-67 | unmapped tokens get the zero level; a token sits at Assign exactly when it is an assignment operator; only the comma and unmapped tokens sit at the zero level; a token is a comparison exactly when its level is Compare or Equals |
| Precedence.UnaryPrec | js/util.go:69-82 | the operand minimum exists exactly for unary operators; it is LHS exactly for the postfix forms and Unary otherwise |
| Precedence.BinaryLeftPrec | js/util.go:84-124 | unmapped tokens get the zero level; every assignment needs a left-hand side on the left |
| Precedence.BinaryRightPrec | js/util.go:126-166 | unmapped tokens get the zero level; every assignment accepts an assignment expression on the right |
| Precedence.LeftOperandTable | js/util.go:84-124 | the left minimum equals the operator's own level for every non-assignment operator but `**`; `**` needs Update, strictly above its own level; assignments need LHS on the left and Assign on the right |
| Precedence.RightOperandTable | js/util.go:126-166 | `**`, `&&`, `||` and assignments accept their own level on the right; every other operator needs the next level up, and `&` two levels up |
| Precedence.OperandsNotBelowOwnLevel | js/util.go:84-166 | no operand minimum is below the operator's own level |
| Precedence.ExprPrec | js/util.go:168-196 | the level is zero exactly for unrecognised nodes, the comma and unmapped operators, Primary exactly for primary nodes and untagged templates, Member exactly for member accesses, tagged templates and `new` with arguments, LHS exactly for calls, optional chains and `new` without arguments, and Assign exactly for conditionals, yield, arrow functions and assignment operators; parentheses are looked through |
| Precedence.GroupsKeepPrec | js/util.go:192-193 | any number of parentheses leave the level unchanged |
| Precedence.UngroupKeepsPrec | js/util.go:168-196 | the level of an expression is the level of its innermost non-group node |
| Precedence.NewAndTemplateLevels | js/util.go:176-185 | `new C` is LHS and `new C()` Member, strictly above it; an untagged template is Primary and a tagged one Member, strictly below it |
| Precedence.UnmappedOperatorsAreExpr | js/util.go:168-196 | unary and binary nodes with operators missing from the tables, and unrecognised nodes, get the zero level |
| Statements.IsEmptyStmt | js/util.go:211-225 | only an absent statement, `;` or a block can be empty, and a block with no statements is empty |
| Statements.EmptyIffAllLeavesNoOp | js/util.go:211-225 | a statement is empty exactly when every leaf of its tree is absent or `;`, so nested empty blocks of any depth, the empty block included, are empty |
| Statements.IsReturnThrowStmt | js/util.go:227-234 | only return and throw statements qualify, and they are neither empty nor blocks |
| Statements.HasReturnThrowStmt | js/util.go:236-243 | a diverging statement is never empty |
| Statements.TrailingStatementDecides | js/util.go:236-243 | for a block, only its last statement decides; the empty block does not diverge |
| Statements.NoDeeperRecursion | js/util.go:236-243 | a return or throw nested inside an inner block is not seen |
| Constants.LiteralTruth | js/util.go:303-314 | a literal's truth is known exactly for the literal kinds the analyser recognises; it is false exactly for false, null, a string whose body decodes to nothing, and a number whose digits are all 0 |
| Constants.FalsySpellingsAreFalsy | js/util.go:305-311 | every spelling the analyser reads as falsy spells a falsy value |
| Constants.IsTrue | js/util.go:245-256 | whatever isTrue accepts is true |
| Constants.IsFalse | js/util.go:258-269 | whatever isFalse accepts is false, except exactly `!` in front of a decimal zero other than `0` (`!.0`, `!0.0`), which it accepts although it is true |
| Constants.IsFalseCorrected | js/util.go:258-269 | the corrected test accepts only false expressions, and exactly those isFalse accepts that are false |
| Constants.IsFalseMisjudgesNotDotZero | js/util.go:263-264 | isFalse accepts `!.0` and `!0.0`, which are true; isTruthy reports `!.0` as truthy; the corrected test rejects it |
| Constants.IsFalseCorrectedAgreesWithFalsy | js/util.go:258-269 | whatever the corrected test accepts, isFalsy and the corrected isFalsy report as known and falsy |
| Constants.TrueAndFalseExclusive | js/util.go:245-269 | isTrue and isFalse never both hold |
| Constants.IsUndefined | js/util.go:271-280 | true exactly for the name `undefined` and for any `void` expression, and whatever it accepts is false |
| Constants.PeelFalsy | js/util.go:289-319 | the peeling loop's verdict is known exactly when the reference truth is known; then falsy means the truth equals the parity of the `!`s peeled, except when the innermost node is a falsy literal the spelling list misses, where the verdict is inverted |
| Constants.IsFalsy | js/util.go:289-319 | known exactly when the reference truth is known; then falsy exactly when it is false, except for a missed falsy literal, which reads as truthy; unknown reads as (false, false) |
| Constants.IsTruthy | js/util.go:282-287 | known exactly when isFalsy is known, then the opposite of isFalsy, and equal to the reference truth unless the innermost literal is a missed falsy one |
| Constants.PeelFalsyCorrected | js/util.go:289-319 | with literals classified by the value they spell, the verdict is right on every expression, and equal to the code's wherever the spelling list does not miss the innermost literal |
| Constants.IsFalsyCorrected | js/util.go:289-319 | the corrected isFalsy is known exactly when the reference truth is, then falsy exactly when it is false, and equal to isFalsy wherever the spelling list does not miss the innermost literal |
| Constants.ZeroSpellingsJudgedTruthy | js/util.go:308-310 | `0.0` and `0x00` are false; isFalsy reports them as known truthy, and the corrected isFalsy as falsy |
| Constants.EmptyStringJudgedTruthy | js/util.go:303-307 | the token of `""` is its two quotes and its value is false; isFalsy and isTruthy report it as known truthy, the corrected isFalsy as falsy |
| Constants.Innermost | js/util.go:293-302 | the node the loop stops at is neither a group nor a `!` |
| Constants.FalsyKnownIffRecognised | js/util.go:303-318 | the verdict is known exactly when the innermost node is a literal of a recognised kind or an undefined spelling |
| Constants.NotChainParity | js/util.go:293-302 | each `!` flips a known verdict and leaves knownness unchanged |
| Constants.PeelFalsyFlip | js/util.go:293-302 | flipping the `!` parity flips a known verdict and leaves knownness unchanged |
| Constants.GroupsKeepFalsy | js/util.go:293-302 | parentheses leave the verdict unchanged |
| Constants.IsEqualExpr | js/util.go:321-335 | true exactly when, after peeling at most one group per side, both sides are the same variable reference |
| Constants.EqualExprProperties | js/util.go:321-335 | equality is symmetric; equal expressions have the same level and truth value; one pair of parentheses is peeled and a second is not |
| Constants.IsBooleanExpr | js/util.go:337-349 | true exactly when the node under any number of parentheses is a `!`, a relational or equality operator, or a boolean literal |
| Bytes.IsHexDigit | js/util.go:351-353 | every octal digit is a hex digit, and a hex digit lies between `0` and `f` and is never a quote or a backslash |
| Bytes.HexDigitIffInAlphabet | js/util.go:351-353 | a byte is a hex digit exactly when it is one of the 22 spellings 0-9, a-f, A-F |
| Bytes.HexByteRoundTrip | js/util.go:381-383 | decoding the two hex digits of a byte, in either letter case, gives the byte back |
| Bytes.HexByteSpelling | js/util.go:381-383 | the decoded byte's sixteens are the high digit's value and its remainder the low digit's |
| StringLiteral.Emit | js/util.go:385-395 | a decoded byte is written as one or two bytes: as itself, or as a two-byte escape that starts with a backslash |
| StringLiteral.EmitClosed | js/util.go:385-395 | the byte is escaped exactly when it is NUL, LF, CR, a backslash or the quote, so what is written never ends or breaks the literal |
| StringLiteral.ClosedBodyConcat | js/util.go:362-441 | two bodies that the closing quote still closes, put together, form such a body |
| StringLiteral.ReplacementClosed | js/util.go:370-431 | in a closed body, both the bytes a replaced escape emits and the bytes after it form closed bodies |
| StringLiteral.RewriteKeepsClosed | js/util.go:362-441 | minifying a body with no raw quote, LF or CR and no trailing lone backslash gives such a body: the literal still ends at its closing quote |
| StringLiteral.RewriteCorrectedKeepsClosed | js/util.go:362-441 | the corrected minifier also keeps a body closed |
| StringLiteral.OctalDigitCount | js/util.go:402-410 | an octal escape takes one to three digits, all inside the body |
| StringLiteral.OctalEscapeValueIsOctalValue | js/util.go:400-410 | the accumulated value is the value of the digits the escape spans, and fits in a byte because a third digit is only taken below 32 |
| StringLiteral.LegacyOctalLength | js/util.go:403-410 | the digits the minifier takes are exactly those of the grammar's legacy octal escape |
| StringLiteral.EscapeAction | js/util.go:363-431 | a replaced escape consumes at least two bytes inside the body and emits fewer bytes than it consumes |
| StringLiteral.EscapeRuleExamples | js/util.go:363-431 | `\t` and `\v` become raw control bytes; `\` CR LF disappears; a hex escape is decoded and re-escaped when it gives LF or the quote; a malformed `\x` and `\0` are kept; a third octal digit is taken only below 32; the other quote loses its backslash |
| StringLiteral.Rewrite | js/util.go:362-441 | the minified body is never longer than the body |
| StringLiteral.RewriteEscape | js/util.go:363-440 | the rewrite at an escape is never longer than its input |
| StringLiteral.RewriteFixedIffMinimal | js/util.go:362-441 | the body is unchanged exactly when every escape the scan meets is kept, and otherwise strictly shorter |
| StringLiteral.ReplaceKeepsValue | js/util.go:370-431 | a replaced escape and its replacement stand for the same characters under the ECMA-262 grammar, unless it is a `\x` or octal escape for a code unit of 0x80 or above |
| StringLiteral.KeptEscapeKeepsValue | js/util.go:365-369 | a kept two-byte escape copied in front of a rest that has the original rest's value keeps the value of the body |
| StringLiteral.KeptIsTwoByteEscape | js/util.go:365-369 | in a body safe to rescan, an escape the scan keeps is a two-byte escape |
| StringLiteral.RewriteKeepsValue | js/util.go:362-441 | minifying a body keeps its string value whenever no NUL is followed by an octal digit, every `\x` is well-formed and every code unit is below 0x80 |
| StringLiteral.HighNumericEscapeDecode | js/util.go:380-422 | a `\x` or octal escape for a code unit of 0x80 or above spans four bytes and stands for that one code unit whatever follows |
| StringLiteral.HighEscapeWrittenRaw | js/util.go:380-395 | `\xe9`, the code unit of `é`, is written as the raw byte 0xE9, which in UTF-8 text is a piece of another character |
| StringLiteral.EscapeActionCorrected | js/util.go:363-431 | the corrected decision keeps exactly the `\x` and octal escapes for code units of 0x80 or above that the minifier replaces, and otherwise decides as the minifier |
| StringLiteral.RewriteCorrected | js/util.go:362-441 | the corrected minified body is never longer than the body |
| StringLiteral.RewriteCorrectedCopiesHighEscape | js/util.go:380-422 | the corrected scan copies a high `\x` or octal escape whole |
| StringLiteral.RewriteCorrectedKeepsValue | js/util.go:362-441 | the corrected minifier keeps the value of every body in which every `\x` is well-formed and no NUL is followed by an octal digit, whatever its code units |
| StringLiteral.RescanMergesNulWithDigit | js/util.go:385-395 | `\x001` (NUL then `1`) becomes the single raw byte 0x01, because the re-escaped `\0` is rescanned with the `1` |
| StringLiteral.KeptNulMeetsDecodedDigit | js/util.go:365-398 | `\0\x31` (NUL then `1`) becomes `\01`, whose value is 0x01 |
| StringLiteral.HighEscapeReplacedRaw | js/util.go:380-422 | a `\x` or octal escape for a code unit of 0x80 or above is replaced by that unit as one raw byte, which reads as a UTF-8 piece instead of the code unit |
| StringLiteral.RewriteReachesMinimal | js/util.go:362-441 | in a body with no malformed `\x` and no NUL followed by an octal digit, the minified body keeps every escape it still holds on a second scan; a raw octal digit at its start is the first unit of the value |
| StringLiteral.RewriteIdempotent | js/util.go:362-441 | for such a body, minifying the minified body changes nothing |
| StringLiteral.MinifyTwiceMergesNulWithDigit | js/util.go:365-398 | `\0\x31` minifies to `\01`, which minifies again to the raw byte 0x01: twice is not once when a NUL is followed by an octal digit |
| StringLiteral.MinifyTwiceIsOnce | js/util.go:355-447 | for a token whose body is safe to rescan, the minified token keeps every escape on a second scan, so minifying it again returns it unchanged |
| StringLiteral.CopyWithin | js/util.go:434 | a forward copy within the buffer places the source bytes at the destination and changes nothing else |
| StringLiteral.WriteDecoded | js/util.go:411-421 | the decoded byte is written ending where the escape ended, raw or re-escaped one byte earlier, and nothing else changes |
| StringLiteral.HexEscape | js/util.go:380-399 | a `\x` escape is kept exactly when the scanner keeps it, and is otherwise replaced in place as the scanner decides |
| StringLiteral.OctalAction | js/util.go:400-410 | an octal escape that is not kept is replaced by its accumulated value, written back |
| StringLiteral.OctalDigits | js/util.go:402-410 | the digit loop counts and accumulates exactly the scanner's octal escape |
| StringLiteral.OctalEscape | js/util.go:400-422 | a legacy octal escape is replaced in place as the scanner decides |
| StringLiteral.SimpleEscape | js/util.go:370-431 | line continuations, `\t` `\f` `\v` `\b` and other escaped bytes are replaced in place as the scanner decides |
| StringLiteral.ScanEscape | js/util.go:363-431 | the escape is kept exactly when the scanner keeps it, the buffer is then untouched, and otherwise it is replaced in place as the scanner decides |
| StringLiteral.EscapeStep | js/util.go:363-431 | a kept escape leaves the buffer alone and is copied by the scan; a replaced one is spliced in place and pushed back |
| StringLiteral.PlainStep | js/util.go:362-363 | a byte that is not a backslash is copied by the scan |
| StringLiteral.KeptStep | js/util.go:365-369 | a kept escape is copied by the scan, both bytes |
| StringLiteral.ReplacedStep | js/util.go:432-440 | a replaced escape is pushed back as its replacement, inside the body |
| StringLiteral.MoveWritten | js/util.go:433-437 | the bytes written since the last replacement are moved down after those written before it, the opening quote and everything from the new write cursor on are left alone |
| StringLiteral.ReplaceOutput | js/util.go:432-440 | after a replacement, with the cursors updated, the quotes are in place, the write cursor is below the new start, and the eventual output is unchanged |
| StringLiteral.StepPlain | js/util.go:362-363 | moving past a plain byte keeps the scan invariant |
| StringLiteral.StepKeep | js/util.go:365-369 | moving past a kept escape keeps the scan invariant |
| StringLiteral.StepReplace | js/util.go:432-440 | a replacement keeps the scan invariant, with the read start set to the resume position |
| StringLiteral.StepEscape | js/util.go:363-440 | one escape keeps the scan invariant and makes progress; the buffer is untouched until the first replacement |
| StringLiteral.Step | js/util.go:362-441 | one iteration keeps the scan invariant and makes progress; the buffer is untouched until the first replacement |
| StringLiteral.ScanStart | js/util.go:359-362 | the scan starts after the opening quote with nothing written |
| StringLiteral.ScanFinish | js/util.go:442-446 | when the scan stops, the final copy gives the quotes around the minified body, and without a replacement the buffer is that already |
| StringLiteral.Finish | js/util.go:442-446 | the end of the function returns the quotes around the minified body |
| StringLiteral.MinifyString | js/util.go:355-447 | tokens under three bytes are returned unchanged; otherwise the result is the quotes around the minified body, no longer than the token, with the token's first and last byte, and the token itself when no escape is replaced; when the body has no malformed `\x` and no NUL followed by an octal digit, every escape in the result is kept, so minifying the result again returns it |
| StringLiteral.MinimalTokenUnchanged | js/util.go:355-447 | a token whose every escape is kept minifies to itself |
| Radix.DecimalDigitsCorrect | js/util.go:458-464 | the decimal spelling has LenInt(n) digits, reads back as n, and has no leading zero unless n is zero |
| Radix.RadixValueBound | js/util.go:453-457 | k digits in a base have a value below the base to the k |
| Radix.LenIntBound | js/util.go:458 | a value below ten to the k has at most k decimal digits |
| Radix.DigitLimits | js/util.go:450 | 63 binary digits and 21 octal digits reach exactly 2^63 |
| Radix.BinaryFits | js/util.go:450-457 | up to 63 binary digits never reach 2^63, so the int64 accumulator does not overflow |
| Radix.OctalFits | js/util.go:469-476 | up to 21 octal digits never reach 2^63, so the int64 accumulator does not overflow |
| Radix.Accumulate | js/util.go:453-457 | the loop computes the value of the digits after the prefix, below the base to the number of digits |
| Radix.WriteDecimal | js/util.go:458-464 | the digit loop leaves exactly the decimal spelling of n in the buffer's first LenInt(n) bytes |
| Radix.ToDecimal | js/util.go:453-464 | the buffer becomes the decimal spelling of the digits' value, at most as long as the digits |
| Radix.Convert | js/util.go:453-464 | the value is below 2^63 and the result is its canonical decimal spelling, shorter than the token |
| Radix.BinaryNumber | js/util.go:449-466 | tokens of at most two or more than 65 bytes are returned unchanged; any other is replaced by the canonical decimal spelling of its value, which is below 2^63 |
| Radix.OctalNumber | js/util.go:468-485 | tokens of at most two or more than 23 bytes are returned unchanged; any other is replaced by the canonical decimal spelling of its value, which is below 2^63 |

## Left out

- `minify.Number` (`js/util.go:465`, `js/util.go:484`) is the shortest-number formatter
  the radix converters hand their digits to. It is not part of this model.
  `Radix.BinaryNumber` and `Radix.OctalNumber` return the digit buffer they would hand
  to it.
- `strconv.LenInt` and `hex.Decode` are library calls. They are replaced by
  `Radix.LenInt` and `Bytes.HexByte`.
- `isIdentStartBindingElement` and `isIdentEndAlias` (`js/util.go:198-209`) are one-line
  type and byte tests. They have no property worth stating.
- The parser's syntax tree, token kinds and precedence levels are defined elsewhere. The
  model has its own datatypes, with only the variants and token kinds this file inspects.
- The name lookup through the parser's table is not modelled. A variable reference
  carries its name directly, and the name `undefined` is treated as undefined with no
  scope check, as the code does.
- Re-parsing is not modelled. The model does not prove that printing at the tabulated
  levels re-parses to the same tree, because that would need a JavaScript parser.
- StringLiteral.MinifyString is proved idempotent only for bodies with no malformed `\x`
  and no NUL followed by an octal digit. Otherwise a second pass can change the result,
  as `StringLiteral.MinifyTwiceMergesNulWithDigit` shows for `"\0\x31"`.
- StringLiteral.MinifyString requires the first byte of a token of three or more bytes to
  be `'` or `"`. The code takes whatever byte 0 is as the quote (`js/util.go:359`) and
  is meant for string tokens. A token starting with another byte is not modelled.
- StringLiteral.RewriteKeepsValue is stated only for bodies with no malformed `\x`, no
  NUL directly followed by an octal digit, and no `\x` or octal escape for a code unit of
  0x80 or above. For other bodies the value can change, as
  `StringLiteral.RescanMergesNulWithDigit`, `StringLiteral.KeptNulMeetsDecodedDigit` and
  `StringLiteral.HighEscapeWrittenRaw` show.
- StringLiteral.ReplaceKeepsValue excludes `\x` and octal escapes for code units of 0x80
  or above, for the same reason.
- StringLiteral.Decode does not decode UTF-8. It keeps each raw byte of 0x80 or above as
  one unit. Two bodies therefore have the same value when their runs of such bytes are
  equal. The validity of the UTF-8 encoding is not checked.
- Constants.IsFalsy, Constants.IsTruthy and Constants.PeelFalsy agree with the reference
  truth only when the innermost literal is not a falsy value missing from the analyser's
  spelling list. The Findings table gives such inputs.
- Constants.LiteralTruth reads a decimal literal as zero only when its mantissa digits
  are all 0. A literal so small that it rounds to zero, such as `1e-400`, is read as
  truthy, because floating-point rounding is not modelled.
- StringLiteral.Decode treats a `\u` escape as one opaque unit. The minifier copies
  `\u` escapes unchanged.
- Radix.BinaryNumber and Radix.OctalNumber require the bytes after the prefix to be
  digits of the base, so a caller must pass a literal without numeric separators. The
  code itself adds `c - '0'` for every byte after the prefix, whatever it is: a
  separator `_` adds 47, so `0b1_0` gives 98, and a byte below `'0'` wraps around as a
  byte. These inputs are not modelled.
- The byte buffer is modelled as an immutable sequence, with each in-place write as a
  sequence update. The result's sharing of storage with the argument is not modelled.
- The int64 accumulator of the radix converters is an unbounded integer that is proved
  to stay below 2^63. No wrap-around is therefore modelled.

## Findings

| source | as written | input that shows it | evidently intended | confidence | as-written member | corrected member |
|---|---|---|---|---|---|---|
| js/util.go:263-264 | `isFalse` accepts `!` in front of any decimal literal other than the one-byte `0` | `!.0` and `!0.0`: the literal is zero, so the negation is true, yet `isFalse` accepts it, while `isFalsy` reports `!.0` truthy | `!` in front of a decimal literal is false exactly when the literal spells a non-zero number | not executed | Constants.IsFalse | Constants.IsFalseCorrected |
| js/util.go:308-310 | `isFalsy` reads a decimal literal as zero only when it is `0` or `.0`, and a binary, octal or hexadecimal literal only when its one digit is `0` | `0.0` and `0x00`: each spells zero and is reported known truthy | a literal that spells zero is falsy | not executed | Constants.ZeroSpellingsJudgedTruthy | Constants.IsFalsyCorrected |
| js/util.go:307 | `isFalsy` reads a string literal as falsy only when its token is empty | `""`: the token holds its two quotes, as the string minifier's reading of the quote from byte 0 shows (js/util.go:359), so it is never empty, and `""` is reported known truthy | a string literal whose body stands for no character is falsy | not executed | Constants.EmptyStringJudgedTruthy | Constants.IsFalsyCorrected |
| js/util.go:380-422 | a `\x` or octal escape is written back as the raw byte of its value | `"\xe9"`: the escape stands for `é`, U+00E9; the result is a raw 0xE9 byte, which in UTF-8 text begins a multi-byte sequence and is not `é` | an escape for a code unit of 0x80 or above is kept | not executed | StringLiteral.HighEscapeWrittenRaw | StringLiteral.RewriteCorrectedKeepsValue |

=== FILE: ast.dfy ===
/** The expression and statement nodes this layer reads. Only the node
    kinds and fields the analysis inspects are kept; every other node
    kind is `OtherExpr` or `OtherStmt`. */
module Ast {
  import opened Bytes
  import opened Tokens

  datatype Expr =
    | VarRef(name: string)
      /** `data` is the token's raw text: a string literal with its
          quotes, a number with its prefix, separators and suffix */
    | Literal(tt: Token, data: seq<byte>)
    | ArrayLit
    | ObjectLit
    | FuncDecl
    | ClassDecl
    | Unary(op: Token, x: Expr)
    | Binary(op: Token, x: Expr, y: Expr)
      /** `new C` when `hasArgs` is false, `new C(...)` when it is true */
    | New(callee: Expr, hasArgs: bool)
    | Template(tagged: bool)
    | Dot
    | Index
    | NewTarget
    | ImportMeta
    | Call
    | OptChain
    | Cond
    | Yield
    | Arrow
    | Group(x: Expr)
    | OtherExpr

  /** `Nil` is an absent statement (a nil interface value). */
  datatype Stmt =
    | Nil
    | EmptyStmt
    | Block(list: seq<Stmt>)
    | ReturnStmt
    | ThrowStmt
    | OtherStmt

  /** `k` parentheses around `e`. */
  function Groups(k: nat, e: Expr): (r: Expr)
    ensures k > 0 ==> r.Group?
  {
    if k == 0 then e else Group(Groups(k - 1, e))
  }

  /** `k` logical-not operators in front of `e`. */
  function Nots(k: nat, e: Expr): (r: Expr)
    ensures k > 0 ==> r.Unary? && r.op == Not
  {
    if k == 0 then e else Unary(Not, Nots(k - 1, e))
  }

  /** The expression inside all enclosing parentheses. */
  function Ungroup(e: Expr): (r: Expr)
    ensures !r.Group?
    ensures r == e || e.Group?
  {
    if e.Group? then Ungroup(e.x) else e
  }
}

=== FILE: bytes.dfy ===
/** Bytes of literal token buffers, the ASCII constants the minifier
    compares them with, and the two-hex-digit decoder the string
    minifier uses in place of a general hex decoder. */
module Bytes {

  /** One byte of a token buffer. */
  type byte = x: int | 0 <= x < 256

  const Nul: byte := 0
  const Backspace: byte := 8
  const Tab: byte := 9
  const LF: byte := 10
  const VerticalTab: byte := 11
  const FormFeed: byte := 12
  const CR: byte := 13
  const DoubleQuote: byte := 34
  const SingleQuote: byte := 39
  const Period: byte := 46
  const Digit0: byte := 48
  const Digit1: byte := 49
  const Digit7: byte := 55
  const Digit9: byte := 57
  const UpperA: byte := 65
  const UpperB: byte := 66
  const UpperE: byte := 69
  const UpperF: byte := 70
  const UpperO: byte := 79
  const UpperX: byte := 88
  const Backslash: byte := 92
  const Underscore: byte := 95
  const LowerA: byte := 97
  const LowerB: byte := 98
  const LowerE: byte := 101
  const LowerF: byte := 102
  const LowerN: byte := 110
  const LowerO: byte := 111
  const LowerR: byte := 114
  const LowerT: byte := 116
  const LowerU: byte := 117
  const LowerV: byte := 118
  const LowerX: byte := 120

  /** The three UTF-8 bytes of U+2028 LINE SEPARATOR are E2 80 A8 and of
      U+2029 PARAGRAPH SEPARATOR E2 80 A9. */
  const Utf8Lead: byte := 0xE2
  const Utf8Cont: byte := 0x80
  const LineSepLast: byte := 0xA8
  const ParaSepLast: byte := 0xA9

  /** The quote bytes a string literal token can start with. */
  predicate IsQuote(q: byte) {
    q == DoubleQuote || q == SingleQuote
  }

  predicate IsOctalDigit(c: byte) {
    Digit0 <= c <= Digit7
  }

  /** The 22 bytes that spell a hexadecimal digit. */
  const HexAlphabet: set<byte> :=
    {48, 49, 50, 51, 52, 53, 54, 55, 56, 57, 97, 98, 99, 100, 101, 102, 65, 66, 67, 68, 69, 70}

  /** isHexDigit: 0-9, a-f, A-F. Every octal digit is one; none is a
      backslash, a quote or a line terminator. */
  predicate IsHexDigit(c: byte): (r: bool)
    ensures IsOctalDigit(c) ==> r
    ensures r ==> Digit0 <= c <= LowerF && !IsQuote(c) && c != Backslash
  {
    Digit0 <= c <= Digit9 || LowerA <= c <= LowerF || UpperA <= c <= UpperF
  }

  /** A byte is a hex digit exactly when it is in the hexadecimal
      alphabet. */
  lemma HexDigitIffInAlphabet(c: byte)
    ensures IsHexDigit(c) <==> c in HexAlphabet
  {
  }

  /** The value 0..15 of a hex digit. */
  function HexValue(c: byte): (v: nat)
    requires IsHexDigit(c)
    ensures v < 16
  {
    if c <= Digit9 then c - Digit0
    else if c >= LowerA then c - LowerA + 10
    else c - UpperA + 10
  }

  /** The byte that two hex digits spell, high digit first. */
  function HexByte(hi: byte, lo: byte): (r: byte)
    requires IsHexDigit(hi) && IsHexDigit(lo)
  {
    HexValue(hi) * 16 + HexValue(lo)
  }

  /** The lower-case hex digit for a value below 16. */
  function LowerHexDigit(v: nat): (c: byte)
    requires v < 16
    ensures IsHexDigit(c)
  {
    if v < 10 then Digit0 + v else LowerA + v - 10
  }

  /** The upper-case hex digit for a value below 16. */
  function UpperHexDigit(v: nat): (c: byte)
    requires v < 16
    ensures IsHexDigit(c)
  {
    if v < 10 then Digit0 + v else UpperA + v - 10
  }

  lemma HexDigitValue(v: nat)
    requires v < 16
    ensures HexValue(LowerHexDigit(v)) == v
    ensures HexValue(UpperHexDigit(v)) == v
  {
  }

  /** Decoding two hex digits inverts spelling a byte in hex, in either
      letter case. */
  lemma HexByteRoundTrip(v: byte)
    ensures HexByte(LowerHexDigit(v / 16), LowerHexDigit(v % 16)) == v
    ensures HexByte(UpperHexDigit(v / 16), UpperHexDigit(v % 16)) == v
  {
    HexDigitValue(v / 16);
    HexDigitValue(v % 16);
  }

  /** The high digit of a decoded byte is its sixteens, the low digit its
      remainder: the decoding loses nothing. */
  lemma HexByteSpelling(hi: byte, lo: byte)
    requires IsHexDigit(hi) && IsHexDigit(lo)
    ensures HexByte(hi, lo) / 16 == HexValue(hi)
    ensures HexByte(hi, lo) % 16 == HexValue(lo)
  {
    var h, l := HexValue(hi), HexValue(lo);
    assert HexByte(hi, lo) == h * 16 + l;
  }
}

=== FILE: constants.dfy ===
/** The constant-value analyser: what can be known, without evaluating
    anything, about an expression's boolean value, its being undefined,
    its boolean shape, and its identity with another expression.

    The reference meaning is `Truth`, a recursive reading of ToBoolean
    (section 7.1.2 of ECMA-262) for literals, `!`, parentheses and the two
    spellings of undefined. A literal's truth is read from the value its
    token spells (a zero number, an empty string), independently of the
    short list of spellings the analyser compares against; the analyser's
    own functions are proved against it, exceptions included. */
module Constants {
  import opened Bytes
  import opened Tokens
  import opened Ast
  import Precedence
  import StringLiteral

  /** A boolean value that is either known or not. */
  datatype Truthiness = Unknown | Known(value: bool)

  function Negate(t: Truthiness): Truthiness {
    match t
    case Unknown => Unknown
    case Known(v) => Known(!v)
  }

  /** The name the analyser treats as undefined (no scope lookup). */
  const UndefinedName: string := "undefined"

  /** The literal kinds whose truth value the analyser decides. */
  predicate IsRecognisedLiteral(tt: Token) {
    tt in {TrueLit, FalseLit, NullLit, StringLit, DecimalLit, BinaryLit, OctalLit, HexLit, BigIntLit}
  }

  predicate IsRadixLiteral(tt: Token) {
    tt in {BinaryLit, OctalLit, HexLit}
  }

  /** The literal spellings the analyser reads as falsy: false, null, an
      empty token, `0` and `.0`, a radix literal whose only digit is 0
      (`0b0`, `0o0`, `0x0`) and the BigInt `0n`. */
  predicate IsFalsySpelling(tt: Token, d: seq<byte>) {
    || tt == FalseLit
    || tt == NullLit
    || (tt == StringLit && |d| == 0)
    || (tt == DecimalLit && (d == [Digit0] || d == [Period, Digit0]))
    || (IsRadixLiteral(tt) && |d| == 3 && d[2] == Digit0)
    || (tt == BigIntLit && |d| == 2 && d[0] == Digit0)
  }

  /** Where the exponent of a decimal literal starts (its length when it
      has none). */
  function MantissaEnd(d: seq<byte>): (m: nat)
    ensures m <= |d|
    ensures forall k | 0 <= k < m :: d[k] != LowerE && d[k] != UpperE
    ensures m < |d| ==> d[m] == LowerE || d[m] == UpperE
  {
    if |d| == 0 || d[0] == LowerE || d[0] == UpperE then 0
    else 1 + MantissaEnd(d[1..])
  }

  /** A decimal literal spells zero when every digit of its mantissa is 0;
      the point and the `_` separators are not digits, and the exponent
      cannot make a zero mantissa non-zero. */
  predicate DecimalIsZero(d: seq<byte>) {
    forall k | 0 <= k < MantissaEnd(d) :: d[k] == Digit0 || d[k] == Period || d[k] == Underscore
  }

  /** A `0b`, `0o` or `0x` literal spells zero when every digit after
      its two-byte prefix is 0. */
  predicate RadixIsZero(d: seq<byte>) {
    forall k | 2 <= k < |d| :: d[k] == Digit0 || d[k] == Underscore
  }

  predicate IsRadixLetter(c: byte) {
    c in {LowerB, UpperB, LowerO, UpperO, LowerX, UpperX}
  }

  /** A BigInt literal spells zero when every digit before its `n` suffix
      is 0; the second byte may be a radix letter. */
  predicate BigIntIsZero(d: seq<byte>) {
    forall k | 0 <= k < |d| - 1 :: d[k] == Digit0 || d[k] == Underscore || (k == 1 && IsRadixLetter(d[k]))
  }

  /** The bytes between the quotes of a string literal token. */
  function StringBody(d: seq<byte>): (r: seq<byte>)
    ensures |d| >= 2 ==> d == [d[0]] + r + [d[|d| - 1]]
  {
    if |d| >= 2 then d[1..|d| - 1] else []
  }

  /** A string literal token is empty when its body stands for no
      character at all (it may still hold line continuations). */
  predicate StringIsEmpty(d: seq<byte>) {
    StringLiteral.Decode(StringBody(d)) == []
  }

  /** The recognised literals whose value is falsy: false, null, the empty
      string and the zero numbers. */
  predicate IsFalsyValue(tt: Token, d: seq<byte>) {
    || tt == FalseLit
    || tt == NullLit
    || (tt == StringLit && StringIsEmpty(d))
    || (tt == DecimalLit && DecimalIsZero(d))
    || (IsRadixLiteral(tt) && RadixIsZero(d))
    || (tt == BigIntLit && BigIntIsZero(d))
  }

  /** The truth value of a literal token, read from the value it spells. */
  function LiteralTruth(tt: Token, d: seq<byte>): (t: Truthiness)
    ensures t.Known? <==> IsRecognisedLiteral(tt)
    ensures t == Known(false) <==> IsFalsyValue(tt, d)
  {
    if IsFalsyValue(tt, d) then Known(false)
    else if IsRecognisedLiteral(tt) then Known(true)
    else Unknown
  }

  /** Every spelling the analyser reads as falsy does spell a falsy value:
      its list is sound, though not complete. */
  lemma FalsySpellingsAreFalsy(tt: Token, d: seq<byte>)
    requires IsFalsySpelling(tt, d)
    ensures LiteralTruth(tt, d) == Known(false)
  {
    if tt == StringLit && |d| == 0 {
      assert StringBody(d) == [];
    } else if tt == DecimalLit {
      assert MantissaEnd(d) == |d| by {
        assert MantissaEnd(d[1..]) == |d[1..]| by {
          if |d| == 2 {
            assert MantissaEnd(d[1..][1..]) == 0;
          }
        }
      }
    }
  }

  /** A literal whose value is falsy but which is missing from the
      analyser's list of falsy spellings: `0.0`, `0x00`, `0e5`,
      `0_0n`, and every empty string, whose token holds its two quotes. */
  predicate MissedFalsy(x: Expr) {
    x.Literal? && IsFalsyValue(x.tt, x.data) && !IsFalsySpelling(x.tt, x.data)
  }

  /** Reference meaning: parentheses are transparent, `!` negates, the
      undefined spellings are false. */
  function Truth(e: Expr): Truthiness {
    match e
    case Group(x) => Truth(x)
    case Unary(op, x) =>
      if op == Not then Negate(Truth(x))
      else if op == Void then Known(false)
      else Unknown
    case Literal(tt, d) => LiteralTruth(tt, d)
    case VarRef(name) => if name == UndefinedName then Known(false) else Unknown
    case _ => Unknown
  }

  /** isTrue: `true` and `!0`. Whatever it accepts is true. */
  function IsTrue(e: Expr): (r: bool)
    ensures r ==> Truth(e) == Known(true)
  {
    if e.Literal? && e.tt == TrueLit then true
    else if e.Unary? && e.op == Not then
      e.x.Literal? && e.x.tt == DecimalLit && |e.x.data| == 1 && e.x.data[0] == Digit0
    else false
  }

  /** `!` in front of a decimal literal that spells zero other than by
      the single byte `0`: `!.0`, `!0.0`, `!0e5`. Each is true. */
  predicate NegatedZeroDecimal(e: Expr) {
    && e.Unary? && e.op == Not
    && e.x.Literal? && e.x.tt == DecimalLit
    && DecimalIsZero(e.x.data) && e.x.data != [Digit0]
  }

  /** `!.0`, the shortest expression isFalse misjudges. */
  const NotDotZero: Expr := Unary(Not, Literal(DecimalLit, [Period, Digit0]))

  /** isFalse, as written: any `false` literal, and `!` in front of a
      decimal literal other than `0`. What it accepts is false except for
      the negated zero decimals, which it accepts although they are true. */
  function IsFalse(e: Expr): (r: bool)
    ensures r && Truth(e) != Known(false) <==> NegatedZeroDecimal(e)
  {
    if e.Literal? then e.tt == FalseLit
    else if e.Unary? && e.op == Not then
      e.x.Literal? && e.x.tt == DecimalLit && (|e.x.data| != 1 || e.x.data[0] != Digit0)
    else false
  }

  /** isFalse with the negated decimal required to spell a non-zero
      number. */
  function IsFalseCorrected(e: Expr): (r: bool)
    ensures r ==> Truth(e) == Known(false)
    ensures r <==> IsFalse(e) && Truth(e) == Known(false)
  {
    if e.Literal? then e.tt == FalseLit
    else if e.Unary? && e.op == Not then
      e.x.Literal? && e.x.tt == DecimalLit && !DecimalIsZero(e.x.data)
    else false
  }

  /** isUndefined: the name `undefined`, or any `void` expression. */
  function IsUndefined(e: Expr): (r: bool)
    ensures r ==> Truth(e) == Known(false)
    ensures r <==> (e.VarRef? && e.name == UndefinedName) || (e.Unary? && e.op == Void)
  {
    if e.VarRef? then e.name == UndefinedName
    else e.Unary? && e.op == Void
  }

  /** The node isFalsy classifies: the first that is neither a group
      nor a `!`. */
  function Innermost(e: Expr): (r: Expr)
    ensures !r.Group? && !(r.Unary? && r.op == Not)
  {
    if e.Group? then Innermost(e.x)
    else if e.Unary? && e.op == Not then Innermost(e.x)
    else e
  }

  /** The loop of isFalsy: peel parentheses and `!`, flipping `negated` at
      each `!`, then classify the innermost node by the analyser's list of
      falsy spellings. The pair is (falsy, known). The verdict is right
      unless the innermost node is a falsy literal missing from the list,
      and then it is exactly wrong. */
  function PeelFalsy(e: Expr, negated: bool): (r: (bool, bool))
    ensures r.1 <==> Truth(e).Known?
    ensures r.1 && !MissedFalsy(Innermost(e)) ==> r.0 == (Truth(e).value == negated)
    ensures r.1 && MissedFalsy(Innermost(e)) ==> r.0 == (Truth(e).value != negated)
    ensures !r.1 ==> !r.0
  {
    if e.Group? then PeelFalsy(e.x, negated)
    else if e.Unary? && e.op == Not then PeelFalsy(e.x, !negated)
    else if e.Literal? then
      if IsFalsySpelling(e.tt, e.data) then
        FalsySpellingsAreFalsy(e.tt, e.data);
        (!negated, true)
      else if e.tt in {TrueLit, StringLit, DecimalLit, BinaryLit, OctalLit, HexLit, BigIntLit} then (negated, true)
      else (false, false)
    else if IsUndefined(e) then (!negated, true)
    else (false, false)
  }

  /** isFalsy: (falsy, known). Known exactly when the reference meaning is
      known; then `falsy` is its negation, except for a falsy literal the
      spelling list misses, which reads as truthy. Unknown reads as
      (false, false). */
  function IsFalsy(e: Expr): (r: (bool, bool))
    ensures r.1 <==> Truth(e).Known?
    ensures r.1 && !MissedFalsy(Innermost(e)) ==> r.0 == !Truth(e).value
    ensures r.1 && MissedFalsy(Innermost(e)) ==> r.0 == Truth(e).value
    ensures !r.1 ==> !r.0
  {
    PeelFalsy(e, false)
  }

  /** isTruthy: known exactly when isFalsy is, and then its opposite. */
  function IsTruthy(e: Expr): (r: (bool, bool))
    ensures r.1 == IsFalsy(e).1
    ensures r.1 ==> r.0 == !IsFalsy(e).0
    ensures r.1 && !MissedFalsy(Innermost(e)) ==> r.0 == Truth(e).value
    ensures !r.1 ==> !r.0
  {
    var (falsy, ok) := IsFalsy(e);
    if ok then (!falsy, true) else (false, false)
  }

  /** isFalsy with the innermost literal classified by the value it
      spells rather than by the short list of spellings. */
  function PeelFalsyCorrected(e: Expr, negated: bool): (r: (bool, bool))
    ensures r.1 <==> Truth(e).Known?
    ensures r.1 ==> r.0 == (Truth(e).value == negated)
    ensures !r.1 ==> !r.0
    ensures !MissedFalsy(Innermost(e)) ==> r == PeelFalsy(e, negated)
  {
    if e.Group? then PeelFalsyCorrected(e.x, negated)
    else if e.Unary? && e.op == Not then PeelFalsyCorrected(e.x, !negated)
    else if e.Literal? then
      if IsFalsyValue(e.tt, e.data) then (!negated, true)
      else if e.tt in {TrueLit, StringLit, DecimalLit, BinaryLit, OctalLit, HexLit, BigIntLit} then (negated, true)
      else (false, false)
    else if IsUndefined(e) then (!negated, true)
    else (false, false)
  }

  /** isFalsy corrected: right on every expression, and the same as isFalsy
      wherever the spelling list does not miss the innermost literal. */
  function IsFalsyCorrected(e: Expr): (r: (bool, bool))
    ensures r.1 <==> Truth(e).Known?
    ensures r.1 ==> r.0 == !Truth(e).value
    ensures !r.1 ==> !r.0
    ensures !MissedFalsy(Innermost(e)) ==> r == IsFalsy(e)
  {
    PeelFalsyCorrected(e, false)
  }

  /** The verdict is known exactly when the innermost node is a literal
      of a recognised kind or an undefined spelling. */
  lemma {:induction false} FalsyKnownIffRecognised(e: Expr, negated: bool)
    ensures PeelFalsy(e, negated).1 <==>
              (Innermost(e).Literal? && IsRecognisedLiteral(Innermost(e).tt)) || IsUndefined(Innermost(e))
  {
    if e.Group? {
      FalsyKnownIffRecognised(e.x, negated);
    } else if e.Unary? && e.op == Not {
      FalsyKnownIffRecognised(e.x, !negated);
    }
  }

  /** Each `!` flips a known verdict; knowledge itself is unaffected. */
  lemma {:induction false} NotChainParity(k: nat, x: Expr)
    ensures IsFalsy(Nots(k, x)).1 == IsFalsy(x).1
    ensures IsFalsy(x).1 ==> IsFalsy(Nots(k, x)).0 == (if k % 2 == 0 then IsFalsy(x).0 else !IsFalsy(x).0)
  {
    if k > 0 {
      NotChainParity(k - 1, x);
      var y := Nots(k - 1, x);
      assert IsFalsy(Nots(k, x)) == PeelFalsy(y, true);
      PeelFalsyFlip(y, false);
      assert (k % 2 == 0) == ((k - 1) % 2 != 0);
    }
  }

  /** Flipping `negated` flips a known verdict and nothing else. */
  lemma PeelFalsyFlip(e: Expr, negated: bool)
    ensures PeelFalsy(e, !negated).1 == PeelFalsy(e, negated).1
    ensures PeelFalsy(e, negated).1 ==> PeelFalsy(e, !negated).0 == !PeelFalsy(e, negated).0
  {
  }

  /** Parentheses leave the verdict alone. */
  lemma {:induction false} GroupsKeepFalsy(k: nat, x: Expr)
    ensures IsFalsy(Groups(k, x)) == IsFalsy(x)
  {
    if k > 0 {
      GroupsKeepFalsy(k - 1, x);
      assert Truth(Groups(k, x)) == Truth(Groups(k - 1, x));
    }
  }

  /** isTrue and isFalse never both hold. */
  lemma TrueAndFalseExclusive(e: Expr)
    ensures !(IsTrue(e) && IsFalse(e))
  {
  }

  /** isFalse accepts `!.0` and `!0.0`, which are true: isTruthy agrees
      that they are true, the corrected isFalse rejects them. */
  lemma IsFalseMisjudgesNotDotZero()
    ensures IsFalse(NotDotZero) && Truth(NotDotZero) == Known(true)
    ensures IsTruthy(NotDotZero) == (true, true)
    ensures !IsFalseCorrected(NotDotZero)
    ensures IsFalse(Unary(Not, Literal(DecimalLit, [Digit0, Period, Digit0])))
    ensures Truth(Unary(Not, Literal(DecimalLit, [Digit0, Period, Digit0]))) == Known(true)
  {
    assert MantissaEnd([Digit0, Period, Digit0][1..][1..]) == 1;
  }

  /** The corrected isFalse never contradicts either isFalsy. */
  lemma IsFalseCorrectedAgreesWithFalsy(e: Expr)
    requires IsFalseCorrected(e)
    ensures IsFalsy(e) == (true, true)
    ensures IsFalsyCorrected(e) == (true, true)
  {
  }

  /** `0.0` and `0x00` spell zero, yet isFalsy reads both as known
      truthy; the corrected isFalsy reads them as falsy. */
  lemma ZeroSpellingsJudgedTruthy()
    ensures Truth(Literal(DecimalLit, [Digit0, Period, Digit0])) == Known(false)
    ensures IsFalsy(Literal(DecimalLit, [Digit0, Period, Digit0])) == (false, true)
    ensures IsFalsyCorrected(Literal(DecimalLit, [Digit0, Period, Digit0])) == (true, true)
    ensures Truth(Literal(HexLit, [Digit0, LowerX, Digit0, Digit0])) == Known(false)
    ensures IsFalsy(Literal(HexLit, [Digit0, LowerX, Digit0, Digit0])) == (false, true)
    ensures IsFalsyCorrected(Literal(HexLit, [Digit0, LowerX, Digit0, Digit0])) == (true, true)
  {
    assert MantissaEnd([Digit0, Period, Digit0][1..][1..]) == 1;
  }

  /** The token of the empty string `""` is two quote bytes, never the
      empty sequence the analyser compares with: isFalsy reads it as known
      truthy, the corrected isFalsy as falsy. */
  lemma EmptyStringJudgedTruthy()
    ensures Truth(Literal(StringLit, [DoubleQuote, DoubleQuote])) == Known(false)
    ensures IsFalsy(Literal(StringLit, [DoubleQuote, DoubleQuote])) == (false, true)
    ensures IsTruthy(Literal(StringLit, [DoubleQuote, DoubleQuote])) == (true, true)
    ensures IsFalsyCorrected(Literal(StringLit, [DoubleQuote, DoubleQuote])) == (true, true)
  {
    assert StringBody([DoubleQuote, DoubleQuote]) == [];
  }

  /** The parenthesis peeled by isEqualExpr: one level, no more. */
  function PeelOne(e: Expr): Expr {
    if e.Group? then e.x else e
  }

  /** isEqualExpr: after removing at most one pair of parentheses on each
      side, both sides are the same variable reference. */
  function IsEqualExpr(a: Expr, b: Expr): (r: bool)
    ensures r <==> PeelOne(a).VarRef? && PeelOne(a) == PeelOne(b)
  {
    var a', b' := PeelOne(a), PeelOne(b);
    a'.VarRef? && b'.VarRef? && a'.name == b'.name
  }

  /** Equality is symmetric, equal expressions have the same level and
      truth value, and a second pair of parentheses defeats it. */
  lemma EqualExprProperties(a: Expr, b: Expr, name: string)
    ensures IsEqualExpr(a, b) == IsEqualExpr(b, a)
    ensures IsEqualExpr(a, b) ==> Precedence.ExprPrec(a) == Precedence.ExprPrec(b) && Truth(a) == Truth(b)
    ensures IsEqualExpr(Group(VarRef(name)), VarRef(name))
    ensures !IsEqualExpr(Group(Group(VarRef(name))), VarRef(name))
  {
  }

  /** The nodes whose value is certainly a boolean. */
  predicate IsBooleanNode(e: Expr) {
    || (e.Unary? && e.op == Not)
    || (e.Binary? && IsComparison(e.op))
    || (e.Literal? && (e.tt == TrueLit || e.tt == FalseLit))
  }

  /** isBooleanExpr: a `!`, a relational or equality operator (found by
      its level in the binary table), a boolean literal, in any number of
      parentheses. */
  function IsBooleanExpr(e: Expr): (r: bool)
    ensures r <==> IsBooleanNode(Ungroup(e))
  {
    match e
    case Unary(op, _) => op == Not
    case Binary(op, _, _) =>
      var p := Precedence.BinaryOpPrec(op);
      p == OpCompare || p == OpEquals
    case Literal(tt, _) => tt == TrueLit || tt == FalseLit
    case Group(x) => IsBooleanExpr(x)
    case _ => false
  }
}

=== FILE: precedence.dfy ===
/** The precedence model: five fixed operator tables and the classifier
    that gives an expression node the precedence level at which it can be
    printed without parentheses.

    Each table is a Go map from token kind to level; a kind without an
    entry reads as the map's zero value, `OpExpr`. Each table below is
    therefore total, with `OpExpr` as its default. */
module Precedence {
  import opened Tokens
  import opened Ast

  /** unaryOpPrecMap: the level of a unary or update expression itself. */
  function UnaryOpPrec(t: Token): (r: OpPrec)
    ensures IsUnaryOperator(t) <==> r != OpExpr
    ensures r == OpUpdate <==> t in {PostIncr, PostDecr, PreIncr, PreDecr}
    ensures r == OpExpr || r == OpUpdate || r == OpUnary
  {
    match t
    case PostIncr => OpUpdate
    case PostDecr => OpUpdate
    case PreIncr => OpUpdate
    case PreDecr => OpUpdate
    case Not => OpUnary
    case BitNot => OpUnary
    case Typeof => OpUnary
    case Void => OpUnary
    case Delete => OpUnary
    case Add => OpUnary
    case Sub => OpUnary
    case Await => OpUnary
    case _ => OpExpr
  }

  /** binaryOpPrecMap: the level of a binary expression itself. */
  function BinaryOpPrec(t: Token): (r: OpPrec)
    ensures !IsBinaryOperator(t) ==> r == OpExpr
    ensures IsAssignment(t) <==> r == OpAssign
    ensures r == OpExpr ==> !IsBinaryOperator(t) || t == Comma
    ensures IsComparison(t) <==> r == OpCompare || r == OpEquals
  {
    match t
    case Eq => OpAssign
    case MulEq => OpAssign
    case DivEq => OpAssign
    case ModEq => OpAssign
    case ExpEq => OpAssign
    case AddEq => OpAssign
    case SubEq => OpAssign
    case LtLtEq => OpAssign
    case GtGtEq => OpAssign
    case GtGtGtEq => OpAssign
    case BitAndEq => OpAssign
    case BitXorEq => OpAssign
    case BitOrEq => OpAssign
    case Exp => OpExp
    case Mul => OpMul
    case Div => OpMul
    case Mod => OpMul
    case Add => OpAdd
    case Sub => OpAdd
    case LtLt => OpShift
    case GtGt => OpShift
    case GtGtGt => OpShift
    case Lt => OpCompare
    case LtEq => OpCompare
    case Gt => OpCompare
    case GtEq => OpCompare
    case In => OpCompare
    case Instanceof => OpCompare
    case EqEq => OpEquals
    case NotEq => OpEquals
    case EqEqEq => OpEquals
    case NotEqEq => OpEquals
    case BitAnd => OpBitAnd
    case BitXor => OpBitXor
    case BitOr => OpBitOr
    case And => OpAnd
    case Or => OpOr
    case Nullish => OpCoalesce
    case Comma => OpExpr
    case _ => OpExpr
  }

  /** unaryPrecMap: the minimum level of a unary expression's operand. */
  function UnaryPrec(t: Token): (r: OpPrec)
    ensures IsUnaryOperator(t) <==> r != OpExpr
    ensures r == OpLHS <==> t == PostIncr || t == PostDecr
    ensures r == OpExpr || r == OpLHS || r == OpUnary
  {
    match t
    case PostIncr => OpLHS
    case PostDecr => OpLHS
    case PreIncr => OpUnary
    case PreDecr => OpUnary
    case Not => OpUnary
    case BitNot => OpUnary
    case Typeof => OpUnary
    case Void => OpUnary
    case Delete => OpUnary
    case Add => OpUnary
    case Sub => OpUnary
    case Await => OpUnary
    case _ => OpExpr
  }

  /** binaryLeftPrecMap: the minimum level of a binary expression's left
      operand. */
  function BinaryLeftPrec(t: Token): (r: OpPrec)
    ensures !IsBinaryOperator(t) ==> r == OpExpr
    ensures IsAssignment(t) ==> r == OpLHS
  {
    match t
    case Eq => OpLHS
    case MulEq => OpLHS
    case DivEq => OpLHS
    case ModEq => OpLHS
    case ExpEq => OpLHS
    case AddEq => OpLHS
    case SubEq => OpLHS
    case LtLtEq => OpLHS
    case GtGtEq => OpLHS
    case GtGtGtEq => OpLHS
    case BitAndEq => OpLHS
    case BitXorEq => OpLHS
    case BitOrEq => OpLHS
    case Exp => OpUpdate
    case Mul => OpMul
    case Div => OpMul
    case Mod => OpMul
    case Add => OpAdd
    case Sub => OpAdd
    case LtLt => OpShift
    case GtGt => OpShift
    case GtGtGt => OpShift
    case Lt => OpCompare
    case LtEq => OpCompare
    case Gt => OpCompare
    case GtEq => OpCompare
    case In => OpCompare
    case Instanceof => OpCompare
    case EqEq => OpEquals
    case NotEq => OpEquals
    case EqEqEq => OpEquals
    case NotEqEq => OpEquals
    case BitAnd => OpBitAnd
    case BitXor => OpBitXor
    case BitOr => OpBitOr
    case And => OpAnd
    case Or => OpOr
    case Nullish => OpCoalesce
    case Comma => OpExpr
    case _ => OpExpr
  }

  /** The binary operators whose right operand must bind strictly tighter
      than the operator itself (the left-associative ones, and `??`). */
  predicate IsLeftGrouping(t: Token) {
    IsBinaryOperator(t) && !IsAssignment(t) && t !in {Exp, And, Or}
  }

  /** binaryRightPrecMap: the minimum level of a binary expression's right
      operand. */
  function BinaryRightPrec(t: Token): (r: OpPrec)
    ensures !IsBinaryOperator(t) ==> r == OpExpr
    ensures IsAssignment(t) ==> r == OpAssign
  {
    match t
    case Eq => OpAssign
    case MulEq => OpAssign
    case DivEq => OpAssign
    case ModEq => OpAssign
    case ExpEq => OpAssign
    case AddEq => OpAssign
    case SubEq => OpAssign
    case LtLtEq => OpAssign
    case GtGtEq => OpAssign
    case GtGtGtEq => OpAssign
    case BitAndEq => OpAssign
    case BitXorEq => OpAssign
    case BitOrEq => OpAssign
    case Exp => OpExp
    case Mul => OpExp
    case Div => OpExp
    case Mod => OpExp
    case Add => OpMul
    case Sub => OpMul
    case LtLt => OpAdd
    case GtGt => OpAdd
    case GtGtGt => OpAdd
    case Lt => OpShift
    case LtEq => OpShift
    case Gt => OpShift
    case GtEq => OpShift
    case In => OpShift
    case Instanceof => OpShift
    case EqEq => OpCompare
    case NotEq => OpCompare
    case EqEqEq => OpCompare
    case NotEqEq => OpCompare
    case BitAnd => OpCompare
    case BitXor => OpBitAnd
    case BitOr => OpBitXor
    case And => OpAnd
    case Or => OpOr
    case Nullish => OpOr
    case Comma => OpAssign
    case _ => OpExpr
  }

  /** The nodes that need parentheses in every context. */
  predicate AlwaysParenthesised(e: Expr) {
    || e.OtherExpr?
    || (e.Unary? && !IsUnaryOperator(e.op))
    || (e.Binary? && (!IsBinaryOperator(e.op) || e.op == Comma))
  }

  /** The nodes that never need parentheses. */
  predicate IsPrimaryNode(e: Expr) {
    || e.VarRef? || e.Literal? || e.ArrayLit? || e.ObjectLit? || e.FuncDecl? || e.ClassDecl?
    || (e.Template? && !e.tagged)
  }

  /** exprPrec: the level of an expression node; parentheses are
      transparent, and only the innermost node decides. */
  function ExprPrec(e: Expr): (p: OpPrec)
    ensures p == OpExpr <==> AlwaysParenthesised(Ungroup(e))
    ensures p == OpPrimary <==> IsPrimaryNode(Ungroup(e))
    ensures p == OpMember <==> Ungroup(e) in {Dot, Index, NewTarget, ImportMeta, Template(true)}
                               || (Ungroup(e).New? && Ungroup(e).hasArgs)
    ensures p == OpLHS <==> Ungroup(e) in {Call, OptChain} || (Ungroup(e).New? && !Ungroup(e).hasArgs)
    ensures p == OpAssign <==> Ungroup(e) in {Cond, Yield, Arrow}
                               || (Ungroup(e).Binary? && IsAssignment(Ungroup(e).op))
  {
    match e
    case VarRef(_) => OpPrimary
    case Literal(_, _) => OpPrimary
    case ArrayLit => OpPrimary
    case ObjectLit => OpPrimary
    case FuncDecl => OpPrimary
    case ClassDecl => OpPrimary
    case Unary(op, _) => UnaryOpPrec(op)
    case Binary(op, _, _) => BinaryOpPrec(op)
    case New(_, hasArgs) => if hasArgs then OpMember else OpLHS
    case Template(tagged) => if tagged then OpMember else OpPrimary
    case Dot => OpMember
    case Index => OpMember
    case NewTarget => OpMember
    case ImportMeta => OpMember
    case Call => OpLHS
    case OptChain => OpLHS
    case Cond => OpAssign
    case Yield => OpAssign
    case Arrow => OpAssign
    case Group(x) => ExprPrec(x)
    case OtherExpr => OpExpr
  }

  /** Any number of parentheses leave the level unchanged. */
  lemma {:induction false} GroupsKeepPrec(k: nat, e: Expr)
    ensures ExprPrec(Groups(k, e)) == ExprPrec(e)
  {
    if k > 0 {
      GroupsKeepPrec(k - 1, e);
    }
  }

  /** The level of an expression is the level of its innermost node. */
  lemma {:induction false} UngroupKeepsPrec(e: Expr)
    ensures ExprPrec(Ungroup(e)) == ExprPrec(e)
  {
    if e.Group? {
      UngroupKeepsPrec(e.x);
    }
  }

  /** `new C` binds more weakly than `new C()`, and a tagged template more
      weakly than an untagged one. */
  lemma NewAndTemplateLevels(c: Expr)
    ensures ExprPrec(New(c, false)) == OpLHS && ExprPrec(New(c, true)) == OpMember
    ensures Below(ExprPrec(New(c, false)), ExprPrec(New(c, true)))
    ensures ExprPrec(Template(false)) == OpPrimary && ExprPrec(Template(true)) == OpMember
    ensures Below(ExprPrec(Template(true)), ExprPrec(Template(false)))
  {
  }

  /** A unary or binary node whose operator has no table entry gets the
      zero level, like every unrecognised node. */
  lemma UnmappedOperatorsAreExpr(t: Token, x: Expr, y: Expr)
    ensures !IsUnaryOperator(t) ==> ExprPrec(Unary(t, x)) == OpExpr
    ensures !IsBinaryOperator(t) ==> ExprPrec(Binary(t, x, y)) == OpExpr
    ensures ExprPrec(OtherExpr) == OpExpr
  {
  }

  /** Left operands: every operator except assignments and `**` needs its
      left operand at its own level; `**` needs an update expression,
      strictly above its own level, and assignments a left-hand side. */
  lemma LeftOperandTable(t: Token)
    requires IsBinaryOperator(t)
    ensures !IsAssignment(t) && t != Exp ==> BinaryLeftPrec(t) == BinaryOpPrec(t)
    ensures Below(BinaryOpPrec(Exp), BinaryLeftPrec(Exp)) && BinaryLeftPrec(Exp) == OpUpdate
    ensures IsAssignment(t) ==> BinaryLeftPrec(t) == OpLHS && BinaryRightPrec(t) == OpAssign
  {
  }

  /** Right operands: the right-grouping operators (`**`, assignments) and
      the logical `&&` and `||` accept their own level on the right; every
      other binary operator demands the next level up, except `&` which
      demands two levels up (the comparison level). */
  lemma RightOperandTable(t: Token)
    requires IsBinaryOperator(t)
    ensures t == Exp || t == And || t == Or || IsAssignment(t) ==> BinaryRightPrec(t) == BinaryOpPrec(t)
    ensures IsLeftGrouping(t) && t != BitAnd ==> BinaryRightPrec(t).Rank() == BinaryOpPrec(t).Rank() + 1
    ensures t == BitAnd ==> BinaryRightPrec(t).Rank() == BinaryOpPrec(t).Rank() + 2
  {
  }

  /** No operand table asks for less than the operator's own level, so a
      subexpression printed at its minimum never re-associates upward. */
  lemma OperandsNotBelowOwnLevel(t: Token)
    requires IsBinaryOperator(t)
    ensures !Below(BinaryLeftPrec(t), BinaryOpPrec(t))
    ensures !Below(BinaryRightPrec(t), BinaryOpPrec(t))
  {
  }
}

=== FILE: radix.dfy ===
/** The radix-literal converters (binaryNumber, octalNumber).

    A binary or octal literal token is `0b…` or `0o…`. The converter
    accumulates the value of the digits after the prefix in a signed 64-bit
    integer, then writes that value in decimal into the front of the same
    buffer, least significant digit last-to-first, and cuts the buffer to
    the number of decimal digits. Tokens that are too short or have too many
    digits for the value to fit are returned unchanged. */
module Radix {
  import opened Bytes

  /** The exclusive upper bound of a non-negative Go int64. */
  const Int64Bound: nat := 0x8000_0000_0000_0000

  /** Token length limits: two prefix bytes and at most 63 binary or 21
      octal digits. */
  const MaxBinaryLen: nat := 65
  const MaxOctalLen: nat := 23

  function Pow(base: nat, e: nat): (p: nat)
    ensures base > 0 ==> p > 0
  {
    if e == 0 then 1 else base * Pow(base, e - 1)
  }

  /** `c` is a digit of the given base (at most ten). */
  predicate IsDigitOf(c: byte, base: nat) {
    Digit0 <= c && c - Digit0 < base
  }

  predicate AllDigitsOf(d: seq<byte>, base: nat) {
    forall k | 0 <= k < |d| :: IsDigitOf(d[k], base)
  }

  /** The value of a digit string, most significant digit first. */
  function RadixValue(d: seq<byte>, base: nat): nat
    requires AllDigitsOf(d, base)
  {
    if |d| == 0 then 0
    else
      assert IsDigitOf(d[|d| - 1], base);
      RadixValue(d[..|d| - 1], base) * base + (d[|d| - 1] - Digit0)
  }

  /** strconv.LenInt on a non-negative value: the number of decimal digits,
      one for zero. */
  function LenInt(n: nat): (l: nat)
    ensures 1 <= l
  {
    if n < 10 then 1 else 1 + LenInt(n / 10)
  }

  /** The decimal spelling of `n`, most significant digit first: the
      reference the digit-writing loop is proved against. */
  function DecimalDigits(n: nat): (r: seq<byte>)
    decreases n
  {
    if n < 10 then [Digit0 + n] else DecimalDigits(n / 10) + [Digit0 + n % 10]
  }

  /** The spelling has LenInt(n) decimal digits, no leading zero unless
      `n` is zero, and reads back as `n`. */
  lemma {:induction false} DecimalDigitsCorrect(n: nat)
    ensures |DecimalDigits(n)| == LenInt(n)
    ensures AllDigitsOf(DecimalDigits(n), 10)
    ensures RadixValue(DecimalDigits(n), 10) == n
    ensures DecimalDigits(n)[0] == Digit0 <==> n == 0
    decreases n
  {
    var r := DecimalDigits(n);
    if n >= 10 {
      DecimalDigitsCorrect(n / 10);
      var p := DecimalDigits(n / 10);
      assert r[..|r| - 1] == p && r[0] == p[0];
      assert forall k | 0 <= k < |p| :: r[k] == p[k];
    }
  }

  /** A value with `k` digits in a base is below the base to the `k`. */
  lemma {:induction false} RadixValueBound(d: seq<byte>, base: nat)
    requires AllDigitsOf(d, base)
    ensures RadixValue(d, base) < Pow(base, |d|)
    decreases |d|
  {
    if |d| > 0 {
      var p := d[..|d| - 1];
      assert AllDigitsOf(p, base) by {
        assert forall k | 0 <= k < |p| :: p[k] == d[k];
      }
      RadixValueBound(p, base);
      assert IsDigitOf(d[|d| - 1], base);
      DigitStep(RadixValue(p, base), Pow(base, |p|), base, d[|d| - 1] - Digit0);
    }
  }

  /** Appending a digit multiplies the value so far by the base. */
  lemma RadixValueSnoc(d: seq<byte>, c: byte, base: nat)
    requires AllDigitsOf(d, base) && IsDigitOf(c, base)
    ensures AllDigitsOf(d + [c], base)
    ensures RadixValue(d + [c], base) == RadixValue(d, base) * base + (c - Digit0)
  {
    var e := d + [c];
    assert e[..|e| - 1] == d;
  }

  lemma {:induction false} PowMonotone(a: nat, b: nat, e: nat)
    requires a <= b
    ensures Pow(a, e) <= Pow(b, e)
    decreases e
  {
    if e > 0 {
      PowMonotone(a, b, e - 1);
      MulMonotone(a, b, Pow(a, e - 1));
      MulMonotone(Pow(a, e - 1), Pow(b, e - 1), b);
    }
  }

  /** A value below ten to the `k` has at most `k` decimal digits. */
  lemma {:induction false} LenIntBound(n: nat, k: nat)
    requires 1 <= k && n < Pow(10, k)
    ensures LenInt(n) <= k
    decreases k
  {
    if n >= 10 {
      assert n / 10 < Pow(10, k - 1);
      LenIntBound(n / 10, k - 1);
    }
  }

  /** One more digit: below `w` before, below `w * base` after. */
  lemma DigitStep(v: nat, w: nat, base: nat, c: nat)
    requires v < w && c < base
    ensures v * base + c < w * base
  {
    MulMonotone(v, w - 1, base);
  }

  lemma MulMonotone(x: nat, y: nat, z: nat)
    requires x <= y
    ensures x * z <= y * z
  {
  }

  lemma {:induction false} PowAdd(base: nat, e: nat, f: nat)
    ensures Pow(base, e + f) == Pow(base, e) * Pow(base, f)
    decreases e
  {
    if e > 0 {
      PowAdd(base, e - 1, f);
      var x, y := Pow(base, e - 1), Pow(base, f);
      assert Pow(base, e + f) == base * Pow(base, e - 1 + f);
      MulAssoc(base, x, y);
    }
  }

  lemma MulAssoc(x: nat, y: nat, z: nat)
    ensures x * (y * z) == (x * y) * z
  {
  }

  /** 63 binary digits and 21 octal digits both stay below 2^63. */
  lemma DigitLimits()
    ensures Pow(2, MaxBinaryLen - 2) == Int64Bound
    ensures Pow(8, MaxOctalLen - 2) == Int64Bound
  {
    assert Pow(2, 3) == 8;
    PowAdd(2, 3, 3);
    PowAdd(2, 6, 1);
    PowAdd(2, 7, 7);
    PowAdd(2, 14, 7);
    PowAdd(2, 21, 21);
    PowAdd(2, 42, 21);
    assert Pow(8, 1) == 8;
    PowAdd(8, 1, 1);
    PowAdd(8, 2, 1);
    PowAdd(8, 3, 3);
    PowAdd(8, 6, 1);
    PowAdd(8, 7, 7);
    PowAdd(8, 14, 7);
  }

  /** The accumulation loop: the value of the digits after the two-byte
      prefix, in the given base, never reaching 2^63 at any step. */
  method Accumulate(b: seq<byte>, base: nat) returns (n: nat)
    requires 2 <= |b| && 2 <= base && AllDigitsOf(b[2..], base)
    requires Pow(base, |b| - 2) <= Int64Bound
    ensures n == RadixValue(b[2..], base) && n < Pow(base, |b| - 2)
  {
    n := 0;
    var k := 2;
    while k < |b|
      invariant 2 <= k <= |b| && AllDigitsOf(b[2..k], base)
      invariant n == RadixValue(b[2..k], base) && n < Pow(base, k - 2) <= Int64Bound
    {
      assert IsDigitOf(b[2..][k - 2], base);
      RadixValueSnoc(b[2..k], b[k], base);
      assert b[2..k + 1] == b[2..k] + [b[k]];
      RadixValueBound(b[2..k + 1], base);
      PowPrefix(base, k - 1, |b| - 2);
      n := n * base + (b[k] - Digit0);
      k := k + 1;
    }
    assert b[2..k] == b[2..];
  }

  /** Powers grow with the exponent. */
  lemma {:induction false} PowPrefix(base: nat, e: nat, f: nat)
    requires 1 <= base && e <= f
    ensures Pow(base, e) <= Pow(base, f)
    decreases f
  {
    if e < f {
      PowPrefix(base, e, f - 1);
    }
  }

  /** One pass of the digit-writing loop: with `m` spelling the first
      `i + 1` digits of `n`, its last decimal digit is digit `i` of `n`,
      and `m / 10` spells the first `i`. */
  lemma WriteStep(n: nat, m: nat, i: nat)
    requires i < LenInt(n) == |DecimalDigits(n)|
    requires LenInt(m) == i + 1 && DecimalDigits(m) == DecimalDigits(n)[..i + 1]
    ensures DecimalDigits(n)[i] == Digit0 + m % 10
    ensures 0 < i ==> LenInt(m / 10) == i && DecimalDigits(m / 10) == DecimalDigits(n)[..i]
  {
    var d := DecimalDigits(m);
    assert d[i] == DecimalDigits(n)[i];
    if 0 < i {
      assert DecimalDigits(m / 10) == d[..i];
    }
  }

  /** Writing the one byte where `r` and `s` may differ makes them agree
      from that position on. */
  lemma UpdateExtendsSuffix(r: seq<byte>, s: seq<byte>, i: nat, x: byte)
    requires i < |r| == |s| && r[i + 1..] == s[i + 1..] && s[i] == x
    ensures r[i := x][i..] == s[i..]
  {
    var u := r[i := x];
    assert forall k | i < k < |s| :: u[k] == r[k] == r[i + 1..][k - i - 1] == s[k];
  }

  /** The digit-writing loop: `n` in decimal over the first LenInt(n)
      bytes of the buffer, written from the last digit to the first. */
  method WriteDecimal(b: seq<byte>, n: nat) returns (r: seq<byte>)
    requires LenInt(n) <= |b|
    ensures r == DecimalDigits(n)
  {
    DecimalDigitsCorrect(n);
    ghost var spelling := DecimalDigits(n);
    var i: int := LenInt(n) - 1;
    r := b[..i + 1];
    var m := n;
    while 0 <= i
      invariant -1 <= i < |r| == |spelling| == LenInt(n)
      invariant 0 <= i ==> LenInt(m) == i + 1 && DecimalDigits(m) == spelling[..i + 1]
      invariant r[i + 1..] == spelling[i + 1..]
      decreases i
    {
      WriteStep(n, m, i);
      UpdateExtendsSuffix(r, spelling, i, Digit0 + m % 10);
      r := r[i := Digit0 + m % 10];
      m := m / 10;
      i := i - 1;
    }
  }

  /** The conversion shared by both bases, for a token within the length
      limit: the value of the digits, written in decimal. */
  method ToDecimal(b: seq<byte>, base: nat) returns (r: seq<byte>)
    requires 3 <= |b| && 2 <= base <= 10 && AllDigitsOf(b[2..], base)
    requires Pow(base, |b| - 2) <= Int64Bound
    ensures r == DecimalDigits(RadixValue(b[2..], base))
    ensures |r| <= |b| - 2
  {
    var n := Accumulate(b, base);
    DecimalDigitsCorrect(n);
    PowMonotone(base, 10, |b| - 2);
    LenIntBound(n, |b| - 2);
    r := WriteDecimal(b, n);
  }

  /** What a conversion within the length limit delivers: the value of
      the digits after the prefix fits in an int64, and `r` is its
      canonical decimal spelling (digits only, no leading zero unless the
      value is zero), no longer than LenInt says and shorter than the
      token. */
  predicate Converted(b: seq<byte>, base: nat, r: seq<byte>)
    requires 2 <= |b| && AllDigitsOf(b[2..], base)
  {
    var v := RadixValue(b[2..], base);
    && v < Int64Bound
    && |r| == LenInt(v) < |b|
    && AllDigitsOf(r, 10) && RadixValue(r, 10) == v
    && (r[0] == Digit0 ==> |r| == 1)
  }

  /** Up to 63 binary digits fit in an int64. */
  lemma BinaryFits(k: nat)
    requires k <= MaxBinaryLen - 2
    ensures Pow(2, k) <= Int64Bound
  {
    DigitLimits();
    PowPrefix(2, k, MaxBinaryLen - 2);
  }

  /** Up to 21 octal digits fit in an int64. */
  lemma OctalFits(k: nat)
    requires k <= MaxOctalLen - 2
    ensures Pow(8, k) <= Int64Bound
  {
    DigitLimits();
    PowPrefix(8, k, MaxOctalLen - 2);
  }

  /** The conversion shared by both bases, with the facts that make it
      Converted. */
  method Convert(b: seq<byte>, base: nat) returns (r: seq<byte>)
    requires 3 <= |b| && 2 <= base <= 10 && AllDigitsOf(b[2..], base)
    requires Pow(base, |b| - 2) <= Int64Bound
    ensures Converted(b, base, r)
  {
    r := ToDecimal(b, base);
    RadixValueBound(b[2..], base);
    DecimalDigitsCorrect(RadixValue(b[2..], base));
  }

  /** binaryNumber, up to the hand-over to the number formatter: a token of
      at most two bytes or with more than 63 digits is returned unchanged,
      any other becomes the decimal spelling of its value. */
  method BinaryNumber(b: seq<byte>) returns (r: seq<byte>)
    requires 3 <= |b| <= MaxBinaryLen ==> AllDigitsOf(b[2..], 2)
    ensures |b| <= 2 || MaxBinaryLen < |b| ==> r == b
    ensures 2 < |b| <= MaxBinaryLen ==> Converted(b, 2, r)
  {
    if |b| <= 2 || MaxBinaryLen < |b| {
      return b;
    }
    BinaryFits(|b| - 2);
    r := Convert(b, 2);
  }

  /** octalNumber, up to the hand-over to the number formatter: a token of
      at most two bytes or with more than 21 digits is returned unchanged,
      any other becomes the decimal spelling of its value. */
  method OctalNumber(b: seq<byte>) returns (r: seq<byte>)
    requires 3 <= |b| <= MaxOctalLen ==> AllDigitsOf(b[2..], 8)
    ensures |b| <= 2 || MaxOctalLen < |b| ==> r == b
    ensures 2 < |b| <= MaxOctalLen ==> Converted(b, 8, r)
  {
    if |b| <= 2 || MaxOctalLen < |b| {
      return b;
    }
    OctalFits(|b| - 2);
    r := Convert(b, 8);
  }
}

=== FILE: statements.dfy ===
/** The statement classifier: emptiness and trailing return/throw. */
module Statements {
  import opened Ast

  /** isEmptyStmt: an absent statement, `;`, or a block whose statements
      are all (recursively) empty. A block with no statements is empty. */
  predicate IsEmptyStmt(s: Stmt): (r: bool)
    ensures r ==> s.Nil? || s.EmptyStmt? || s.Block?
    ensures s.Block? && |s.list| == 0 ==> r
    decreases s
  {
    match s
    case Nil => true
    case EmptyStmt => true
    case Block(list) => forall k | 0 <= k < |list| :: IsEmptyStmt(list[k])
    case _ => false
  }

  /** isReturnThrowStmt: exactly the return and throw statements. */
  function IsReturnThrowStmt(s: Stmt): (r: bool)
    ensures r ==> s.ReturnStmt? || s.ThrowStmt?
    ensures r ==> !IsEmptyStmt(s) && !s.Block?
  {
    s.ReturnStmt? || s.ThrowStmt?
  }

  /** hasReturnThrowStmt: the statement itself, or the last statement of a
      non-empty block, is a return or throw. Earlier statements of the
      block and nested blocks are not inspected. */
  function HasReturnThrowStmt(s: Stmt): (r: bool)
    ensures r ==> !IsEmptyStmt(s)
  {
    if IsReturnThrowStmt(s) then true
    else s.Block? && 0 < |s.list| && IsReturnThrowStmt(s.list[|s.list| - 1])
  }

  /** The non-block statements of a statement tree, in order: the tree
      flattened. This is an independent description of what the
      recursive emptiness test looks at. */
  function Leaves(s: Stmt): seq<Stmt>
    decreases s, 1
  {
    match s
    case Block(list) => LeavesOf(list, s)
    case _ => [s]
  }

  /** The leaves of a suffix of a block's statements. */
  function LeavesOf(list: seq<Stmt>, ghost parent: Stmt): seq<Stmt>
    requires forall k | 0 <= k < |list| :: list[k] < parent
    decreases parent, 0, |list|
  {
    if |list| == 0 then [] else Leaves(list[0]) + LeavesOf(list[1..], parent)
  }

  predicate IsNoOpLeaf(s: Stmt) {
    s == Nil || s == EmptyStmt
  }

  lemma {:induction false} LeavesOfEmpty(list: seq<Stmt>, parent: Stmt)
    requires forall k | 0 <= k < |list| :: list[k] < parent
    requires forall k | 0 <= k < |list| :: IsEmptyStmt(list[k]) <==> (forall l | l in Leaves(list[k]) :: IsNoOpLeaf(l))
    ensures (forall k | 0 <= k < |list| :: IsEmptyStmt(list[k])) <==> (forall l | l in LeavesOf(list, parent) :: IsNoOpLeaf(l))
    decreases |list|
  {
    if |list| > 0 {
      LeavesOfEmpty(list[1..], parent);
      assert forall k | 1 <= k < |list| :: list[k] == list[1..][k - 1];
    }
  }

  /** A statement is empty exactly when every leaf of its tree is an
      absent or empty statement: nested empty blocks of any depth are
      empty, and one other statement anywhere makes the whole tree
      non-empty. */
  lemma {:induction false} EmptyIffAllLeavesNoOp(s: Stmt)
    ensures IsEmptyStmt(s) <==> forall l | l in Leaves(s) :: IsNoOpLeaf(l)
    decreases s
  {
    if s.Block? {
      forall k | 0 <= k < |s.list|
        ensures IsEmptyStmt(s.list[k]) <==> (forall l | l in Leaves(s.list[k]) :: IsNoOpLeaf(l))
      {
        EmptyIffAllLeavesNoOp(s.list[k]);
      }
      LeavesOfEmpty(s.list, s);
      assert Leaves(s) == LeavesOf(s.list, s);
    } else {
      assert Leaves(s) == [s] && s in Leaves(s);
    }
  }

  /** Only the last statement of a block decides: appending a return or
      throw makes a block diverge, appending anything else undoes it,
      whatever came before. */
  lemma TrailingStatementDecides(xs: seq<Stmt>, y: Stmt)
    ensures HasReturnThrowStmt(Block(xs + [y])) == IsReturnThrowStmt(y)
    ensures !HasReturnThrowStmt(Block([]))
    ensures HasReturnThrowStmt(Block(xs + [ThrowStmt])) && !HasReturnThrowStmt(Block(xs + [ThrowStmt, EmptyStmt]))
  {
    assert (xs + [ThrowStmt, EmptyStmt]) == (xs + [ThrowStmt]) + [EmptyStmt];
  }

  /** hasReturnThrowStmt does not look into nested blocks. */
  lemma NoDeeperRecursion(s: Stmt)
    requires IsReturnThrowStmt(s)
    ensures HasReturnThrowStmt(Block([s]))
    ensures !HasReturnThrowStmt(Block([Block([s])]))
  {
  }
}

=== FILE: string_literal.dfy ===
/** The string literal minifier (minifyString).

    A literal token is `q body q` with `q` a quote byte. The minifier scans
    the body left to right; every escape it rewrites is replaced in place
    by the bytes it stands for, and scanning resumes at the first of those
    bytes, so a re-escaped byte is scanned a second time.

    `Rewrite` states that scan on sequences: an escape's replacement is
    pushed back in front of the rest of the body and scanned again.
    `MinifyString` is the two-cursor algorithm on the token buffer, held as
    a sequence with each in-place write a sequence update, and is proved to
    compute `Rewrite`. `Decode` is the value of a body under the
    escape grammar of the String Literals section of ECMA-262 (12.9.4 in the
    2023 edition) over a UTF-8 source text: an ASCII byte and a `\x` or
    octal escape stand for one code unit, a byte of 0x80 or above is part
    of the UTF-8 encoding of a character. `Rewrite` is proved to keep that
    value whenever the rescanning cannot merge a NUL escape with a
    following octal digit and no `\x` or octal escape stands for a code
    unit of 0x80 or above; `RewriteCorrected`, which keeps those escapes,
    needs only the first condition. */
module StringLiteral {
  import opened Bytes

  // ---------------------------------------------------------------------
  // The escape the scanner finds at the head of the remaining body
  // ---------------------------------------------------------------------

  /** The minifier either keeps an escape as it is, or replaces its first
      `consumed` bytes by `emit`. */
  datatype Action = Keep | Replace(consumed: nat, emit: seq<byte>)

  /** The bytes a string body cannot hold raw: NUL, the line terminators
      LF and CR, the backslash and the quote. */
  predicate MustEscape(v: byte, q: byte) {
    v == Nul || v == LF || v == CR || v == Backslash || v == q
  }

  /** How a decoded byte is written back: NUL, LF, CR, backslash and the
      quote as a two-byte escape, every other byte raw. */
  function Emit(v: byte, q: byte): (r: seq<byte>)
    ensures 1 <= |r| <= 2
    ensures |r| == 1 <==> r[0] != Backslash
    ensures |r| == 1 ==> r == [v]
  {
    if v == Nul then [Backslash, Digit0]
    else if v == LF then [Backslash, LowerN]
    else if v == CR then [Backslash, LowerR]
    else if v == Backslash || v == q then [Backslash, v]
    else [v]
  }

  /** The number of octal digits the minifier takes after a backslash: a
      second digit if present, and a third only while the value of the
      first two is below 32. */
  function OctalDigitCount(s: seq<byte>): (m: nat)
    requires |s| >= 2 && IsOctalDigit(s[1])
    ensures 1 <= m <= 3 && 1 + m <= |s|
  {
    if 2 < |s| && IsOctalDigit(s[2]) then
      if (s[1] - Digit0) * 8 + (s[2] - Digit0) < 32 && 3 < |s| && IsOctalDigit(s[3]) then 3 else 2
    else 1
  }

  /** The value of a run of octal digits. */
  function OctalValue(d: seq<byte>): nat
    requires forall k | 0 <= k < |d| :: IsOctalDigit(d[k])
  {
    if |d| == 0 then 0
    else
      assert IsOctalDigit(d[|d| - 1]);
      OctalValue(d[..|d| - 1]) * 8 + (d[|d| - 1] - Digit0)
  }

  /** The value the minifier accumulates for the octal escape at the head
      of `s`, digit by digit; the rule that takes a third digit only below
      32 keeps it within a byte. */
  function OctalEscapeValue(s: seq<byte>): byte
    requires |s| >= 2 && IsOctalDigit(s[1])
  {
    var m := OctalDigitCount(s);
    var d := s[1] - Digit0;
    if m == 1 then d
    else if m == 2 then d * 8 + (s[2] - Digit0)
    else (d * 8 + (s[2] - Digit0)) * 8 + (s[3] - Digit0)
  }

  lemma OctalValueDigits(d: seq<byte>)
    requires 1 <= |d| <= 3 && forall k | 0 <= k < |d| :: IsOctalDigit(d[k])
    ensures |d| == 1 ==> OctalValue(d) == d[0] - Digit0
    ensures |d| == 2 ==> OctalValue(d) == (d[0] - Digit0) * 8 + (d[1] - Digit0)
    ensures |d| == 3 ==> OctalValue(d) == ((d[0] - Digit0) * 8 + (d[1] - Digit0)) * 8 + (d[2] - Digit0)
  {
    assert d[..1][..0] == [];
    assert OctalValue(d[..1]) == d[0] - Digit0;
    if |d| == 3 {
      assert d[..2][..1] == d[..1];
    }
  }

  /** The accumulated value is the value of the octal digits the escape
      spans, so it is always below 256. */
  lemma OctalEscapeValueIsOctalValue(s: seq<byte>)
    requires |s| >= 2 && IsOctalDigit(s[1])
    ensures forall k | 1 <= k < 1 + OctalDigitCount(s) :: IsOctalDigit(s[k])
    ensures OctalEscapeValue(s) == OctalValue(s[1..1 + OctalDigitCount(s)]) < 256
  {
    var m := OctalDigitCount(s);
    var d := s[1..1 + m];
    assert forall k | 0 <= k < m :: d[k] == s[1 + k];
    OctalValueDigits(d);
  }

  predicate IsLineContinuation(s: seq<byte>)
    requires |s| >= 2
  {
    var c := s[1];
    c == LF || c == CR || (c == Utf8Lead && 3 < |s| && s[2] == Utf8Cont && (s[3] == LineSepLast || s[3] == ParaSepLast))
  }

  /** The escapes kept whatever follows them: `\0` not followed by an
      octal digit, `\\`, the escaped quote, `\n`, `\r` and `\u`. */
  predicate AlwaysKept(s: seq<byte>, q: byte)
    requires |s| >= 2
  {
    var c := s[1];
    || (c == Digit0 && (|s| == 2 || !IsOctalDigit(s[2])))
    || c == Backslash || c == q || c == LowerN || c == LowerR || c == LowerU
  }

  /** The minifier's decision for the escape at the head of `s`, where `s`
      runs from a backslash to just before the closing quote. */
  function EscapeAction(s: seq<byte>, q: byte): (a: Action)
    requires |s| >= 2 && s[0] == Backslash && IsQuote(q)
    ensures a.Replace? ==> 2 <= a.consumed <= |s| && |a.emit| < a.consumed
  {
    var c := s[1];
    if AlwaysKept(s, q) then Keep
    else if IsLineContinuation(s) then
      if c == Utf8Lead then Replace(4, [])
      else if c == CR && 2 < |s| && s[2] == LF then Replace(3, [])
      else Replace(2, [])
    else if c == LowerX then
      if 3 < |s| && IsHexDigit(s[2]) && IsHexDigit(s[3]) then Replace(4, Emit(HexByte(s[2], s[3]), q))
      else Keep
    else if IsOctalDigit(c) then
      Replace(1 + OctalDigitCount(s), Emit(OctalEscapeValue(s), q))
    else if c == LowerT then Replace(2, [Tab])
    else if c == LowerF then Replace(2, [FormFeed])
    else if c == LowerV then Replace(2, [VerticalTab])
    else if c == LowerB then Replace(2, [Backspace])
    else Replace(2, [c])
  }

  /** The minified body: the scan with push-back. */
  function Rewrite(s: seq<byte>, q: byte): (r: seq<byte>)
    requires IsQuote(q)
    ensures |r| <= |s|
    decreases |s|, 1
  {
    if |s| < 2 then s
    else if s[0] != Backslash then [s[0]] + Rewrite(s[1..], q)
    else RewriteEscape(s, q)
  }

  /** The scan at a backslash: a kept escape is copied and skipped, a
      replaced one is pushed back as its replacement. */
  function RewriteEscape(s: seq<byte>, q: byte): (r: seq<byte>)
    requires IsQuote(q) && |s| >= 2 && s[0] == Backslash
    ensures |r| <= |s|
    decreases |s|, 0
  {
    match EscapeAction(s, q)
    case Keep => s[..2] + Rewrite(s[2..], q)
    case Replace(n, e) => Rewrite(e + s[n..], q)
  }

  // ---------------------------------------------------------------------
  // The value of a body under the ECMA-262 escape grammar
  // ---------------------------------------------------------------------

  /** One unit of a string value. `Char(c)` is the code unit c, as an
      ASCII byte or an escape spells it. `Utf8Byte(b)` is a raw byte of
      0x80 or above: a piece of the UTF-8 encoding of one character, which
      equal runs of such bytes spell equally. A `\u` escape is kept
      opaque: the minifier copies it and the digits after it unchanged. A
      `\x` not followed by two hex digits is a syntax error, kept as a
      marker. */
  datatype Unit = Char(c: byte) | Utf8Byte(b: byte) | UnicodeEscape | MalformedHexEscape

  /** The unit a raw byte of the source text stands for. */
  function RawUnit(c: byte): (u: Unit)
    ensures u.Char? <==> c < 0x80
    ensures u.Char? ==> u.c == c
  {
    if c < 0x80 then Char(c) else Utf8Byte(c)
  }

  /** SingleEscapeCharacter: b t n v f r stand for control characters;
      every other NonEscapeCharacter (and ' " \) stands for itself. */
  function EscapedChar(c: byte): byte {
    if c == LowerB then Backspace
    else if c == LowerT then Tab
    else if c == LowerN then LF
    else if c == LowerV then VerticalTab
    else if c == LowerF then FormFeed
    else if c == LowerR then CR
    else c
  }

  /** The digits of a LegacyOctalEscapeSequence (or `\0`): three when
      the first is 0..3 and two more octal digits follow, two when one more
      follows, otherwise one. */
  function LegacyOctalLength(s: seq<byte>): (m: nat)
    requires |s| >= 2 && IsOctalDigit(s[1])
    ensures m == OctalDigitCount(s)
  {
    if 2 < |s| && IsOctalDigit(s[2]) then
      if s[1] <= Digit0 + 3 && 3 < |s| && IsOctalDigit(s[3]) then 3 else 2
    else 1
  }

  /** The units an escape sequence stands for and the bytes it spans. */
  datatype Lexeme = Lexeme(units: seq<Unit>, len: nat)

  /** The escape sequence at the head of `s` (which starts with a
      backslash) under the grammar: a line continuation stands for
      nothing, every other escape for one unit. */
  function EscapeValue(s: seq<byte>): (l: Lexeme)
    requires |s| >= 2 && s[0] == Backslash
    ensures 2 <= l.len <= |s| && |l.units| <= 1
  {
    var c := s[1];
    if c == LF then Lexeme([], 2)
    else if c == CR then
      if 2 < |s| && s[2] == LF then Lexeme([], 3) else Lexeme([], 2)
    else if c == Utf8Lead && 3 < |s| && s[2] == Utf8Cont && (s[3] == LineSepLast || s[3] == ParaSepLast) then
      Lexeme([], 4)
    else if c == LowerU then Lexeme([UnicodeEscape], 2)
    else if c == LowerX then
      if 3 < |s| && IsHexDigit(s[2]) && IsHexDigit(s[3]) then Lexeme([Char(HexByte(s[2], s[3]))], 4)
      else Lexeme([MalformedHexEscape], 2)
    else if IsOctalDigit(c) then
      Lexeme([Char(OctalEscapeValue(s))], 1 + LegacyOctalLength(s))
    else Lexeme([RawUnit(EscapedChar(c))], 2)
  }

  /** The string value of a literal body (the bytes between the quotes). */
  function Decode(s: seq<byte>): seq<Unit>
    decreases |s|, 1
  {
    if |s| == 0 then []
    else if s[0] != Backslash || |s| == 1 then [RawUnit(s[0])] + Decode(s[1..])
    else DecodeEscape(s)
  }

  /** The value of a body that starts with an escape sequence. */
  function DecodeEscape(s: seq<byte>): seq<Unit>
    requires |s| >= 2 && s[0] == Backslash
    decreases |s|, 0
  {
    var l := EscapeValue(s);
    l.units + Decode(s[l.len..])
  }

  /** The values for which rescanning is harmless: every `\x` is
      well-formed, and no NUL is directly followed by an octal digit. */
  predicate RescanSafe(v: seq<Unit>) {
    && MalformedHexEscape !in v
    && forall k | 0 <= k < |v| - 1 :: !NulBeforeOctalDigit(v, k)
  }

  /** Every code unit is ASCII: no `\x` or octal escape stands for a
      code unit that, written back as a raw byte, would read as a piece of
      a UTF-8 encoded character instead. */
  predicate AsciiUnits(v: seq<Unit>) {
    forall k | 0 <= k < |v| :: v[k].Char? ==> v[k].c < 0x80
  }

  /** Unit k is NUL and unit k + 1 an octal digit. */
  predicate NulBeforeOctalDigit(v: seq<Unit>, k: nat)
    requires k + 1 < |v|
  {
    v[k] == Char(Nul) && v[k + 1].Char? && IsOctalDigit(v[k + 1].c)
  }

  lemma RescanSafeSuffix(u: seq<Unit>, w: seq<Unit>)
    requires RescanSafe(u + w)
    ensures RescanSafe(w)
    ensures AsciiUnits(u + w) ==> AsciiUnits(w)
  {
    assert forall k | 0 <= k < |w| :: (u + w)[|u| + k] == w[k];
    forall k | 0 <= k < |w| - 1
      ensures !NulBeforeOctalDigit(w, k)
    {
      assert !NulBeforeOctalDigit(u + w, |u| + k);
      assert (u + w)[|u| + k] == w[k] && (u + w)[|u| + k + 1] == w[k + 1];
    }
    assert forall x | x in w :: x in u + w;
  }

  lemma DecodePlain(c: byte, t: seq<byte>)
    requires c != Backslash
    ensures Decode([c] + t) == [RawUnit(c)] + Decode(t)
  {
    assert ([c] + t)[1..] == t;
  }

  /** After a NUL that is safe to rescan, the body does not start with a
      raw octal digit. */
  lemma NulFollower(t: seq<byte>)
    requires RescanSafe([Char(Nul)] + Decode(t))
    ensures |t| == 0 || !IsOctalDigit(t[0])
  {
    if |t| > 0 && IsOctalDigit(t[0]) {
      var v := [Char(Nul)] + Decode(t);
      assert v[1] == Char(t[0]);
      assert NulBeforeOctalDigit(v, 0);
      assert false;
    }
  }

  /** The unit a two-byte escape the minifier keeps stands for. */
  function KeptUnit(x: byte): Unit {
    if x == LowerU then UnicodeEscape
    else if x == Digit0 then Char(Nul)
    else Char(EscapedChar(x))
  }

  /** The two-byte escapes the minifier keeps: `\0` only when no octal
      digit follows. */
  predicate IsKeptEscape(s: seq<byte>)
    requires |s| >= 2
  {
    var x := s[1];
    && s[0] == Backslash
    && (x == LowerN || x == LowerR || x == LowerU || x == Backslash || IsQuote(x)
        || (x == Digit0 && (|s| == 2 || !IsOctalDigit(s[2]))))
  }

  /** A kept two-byte escape stands for its kept unit. */
  lemma KeptEscapeValue(s: seq<byte>)
    requires |s| >= 2 && IsKeptEscape(s)
    ensures EscapeValue(s) == Lexeme([KeptUnit(s[1])], 2)
  {
    if s[1] == Digit0 {
      assert LegacyOctalLength(s) == 1;
    }
  }

  /** A kept two-byte escape decodes on its own. */
  lemma DecodeKeptEscape(s: seq<byte>)
    requires |s| >= 2 && IsKeptEscape(s)
    ensures Decode(s) == [KeptUnit(s[1])] + Decode(s[2..])
  {
    KeptEscapeValue(s);
    assert Decode(s) == DecodeEscape(s);
  }

  /** Writing a decoded ASCII byte back (raw or re-escaped) keeps its
      value, provided a re-escaped NUL is not followed by an octal digit. */
  lemma EmitKeepsValue(v: byte, q: byte, t: seq<byte>)
    requires IsQuote(q) && v < 0x80
    requires v == Nul ==> |t| == 0 || !IsOctalDigit(t[0])
    ensures Decode(Emit(v, q) + t) == [Char(v)] + Decode(t)
  {
    var e := Emit(v, q);
    if |e| == 1 {
      var w := [v] + t;
      assert w[1..] == t;
    } else {
      EscapedEmitKeepsValue(v, q, t);
    }
  }

  lemma EscapedEmitKeepsValue(v: byte, q: byte, t: seq<byte>)
    requires IsQuote(q) && |Emit(v, q)| == 2
    requires v == Nul ==> |t| == 0 || !IsOctalDigit(t[0])
    ensures Decode(Emit(v, q) + t) == [Char(v)] + Decode(t)
  {
    var e := Emit(v, q);
    var w := e + t;
    assert w[2..] == t;
    KeptUnitOfEscape(v, q);
    KeptEscapeSplit(w, e[1], t);
  }

  /** The unit a re-escaped byte's escape stands for is that byte. */
  lemma KeptUnitOfEscape(v: byte, q: byte)
    requires IsQuote(q) && |Emit(v, q)| == 2
    ensures KeptUnit(Emit(v, q)[1]) == Char(v)
    ensures var x := Emit(v, q)[1];
              x == LowerN || x == LowerR || x == Backslash || IsQuote(x) || (x == Digit0 && v == Nul)
  {
    if v != Nul && v != LF && v != CR {
      assert Emit(v, q)[1] == v;
      assert v == Backslash || v == q;
    }
  }

  lemma KeptEscapeSplit(w: seq<byte>, x: byte, t: seq<byte>)
    requires |w| >= 2 && w[0] == Backslash && w[1] == x && w[2..] == t
    requires x == LowerN || x == LowerR || x == Backslash || IsQuote(x) || (x == Digit0 && (|t| == 0 || !IsOctalDigit(t[0])))
    ensures Decode(w) == [KeptUnit(x)] + Decode(t)
  {
    assert |w| > 2 ==> w[2] == t[0];
    DecodeKeptEscape(w);
  }

  /** A `\x` or octal escape whose code unit is 0x80 or above. */
  predicate HighNumericEscape(s: seq<byte>)
    requires |s| >= 2
  {
    || (s[1] == LowerX && 3 < |s| && IsHexDigit(s[2]) && IsHexDigit(s[3]) && HexByte(s[2], s[3]) >= 0x80)
    || (IsOctalDigit(s[1]) && OctalEscapeValue(s) >= 0x80)
  }

  /** A high numeric escape spans four bytes, the last two of them digits,
      and stands for one code unit of 0x80 or above whatever follows it. */
  lemma HighNumericEscapeDecode(s: seq<byte>, t: seq<byte>)
    requires |s| >= 2 && s[0] == Backslash && HighNumericEscape(s)
    ensures |s| >= 4 && s[2] != Backslash && s[3] != Backslash
    ensures EscapeValue(s).len == 4 && |EscapeValue(s).units| == 1
    ensures EscapeValue(s).units[0].Char? && EscapeValue(s).units[0].c >= 0x80
    ensures Decode(s[..4] + t) == EscapeValue(s).units + Decode(t)
  {
    var w := s[..4] + t;
    assert w[0] == s[0] && w[1] == s[1] && w[2] == s[2] && w[3] == s[3];
    assert EscapeValue(w) == EscapeValue(s);
    assert w[4..] == t;
    assert Decode(w) == DecodeEscape(w);
  }

  /** A body that starts with a high numeric escape has a code unit of
      0x80 or above. */
  lemma HighNumericEscapeNotAscii(s: seq<byte>)
    requires |s| >= 2 && s[0] == Backslash && HighNumericEscape(s)
    ensures !AsciiUnits(Decode(s))
  {
    HighNumericEscapeDecode(s, s[4..]);
    assert s[..4] + s[4..] == s;
    assert Decode(s)[0] == EscapeValue(s).units[0];
  }

  /** A replaced escape and its replacement have the same value, unless it
      is a `\x` or octal escape for a code unit of 0x80 or above. */
  lemma {:induction false} ReplaceKeepsValue(s: seq<byte>, q: byte)
    requires |s| >= 2 && s[0] == Backslash && IsQuote(q)
    requires EscapeAction(s, q).Replace?
    requires RescanSafe(Decode(s)) && !HighNumericEscape(s)
    ensures var a := EscapeAction(s, q); Decode(a.emit + s[a.consumed..]) == Decode(s)
  {
    var a := EscapeAction(s, q);
    var c := s[1];
    var t := s[a.consumed..];
    assert Decode(s) == DecodeEscape(s);
    if IsLineContinuation(s) {
      assert a.emit + t == t;
    } else if c == LowerX {
      var v := HexByte(s[2], s[3]);
      assert Decode(s) == [Char(v)] + Decode(t);
      if v == Nul {
        NulFollower(t);
      }
      EmitKeepsValue(v, q, t);
    } else if IsOctalDigit(c) {
      var v := OctalEscapeValue(s);
      assert Decode(s) == [Char(v)] + Decode(t);
      if v == Nul {
        NulFollower(t);
      }
      EmitKeepsValue(v, q, t);
    } else {
      assert a.emit == [EscapedChar(c)];
      DecodePlain(EscapedChar(c), t);
    }
  }

  /** An escape the scanner keeps in a body that is safe to rescan is one
      of the two-byte kept escapes: a malformed `\x` is ruled out. */
  lemma KeptIsTwoByteEscape(s: seq<byte>, q: byte)
    requires |s| >= 2 && s[0] == Backslash && IsQuote(q)
    requires EscapeAction(s, q).Keep? && RescanSafe(Decode(s))
    ensures IsKeptEscape(s)
  {
    assert Decode(s) == DecodeEscape(s);
  }

  /** Copying a kept two-byte escape in front of a rest that has the
      value of the original rest keeps the value. */
  lemma KeptEscapeKeepsValue(s: seq<byte>, rt: seq<byte>)
    requires |s| >= 2 && IsKeptEscape(s) && RescanSafe(Decode(s))
    requires Decode(rt) == Decode(s[2..])
    ensures Decode(s[..2] + rt) == Decode(s)
  {
    DecodeKeptEscape(s);
    if s[1] == Digit0 && |rt| > 0 && IsOctalDigit(rt[0]) {
      assert Decode(rt)[0] == Char(rt[0]);
      assert NulBeforeOctalDigit(Decode(s), 0);
      assert false;
    }
    var w := s[..2] + rt;
    assert w[2..] == rt;
    assert |w| > 2 ==> w[2] == rt[0];
    DecodeKeptEscape(w);
  }

  /** Minifying the body keeps its value whenever rescanning is harmless
      and every code unit is ASCII. */
  lemma {:induction false} RewriteKeepsValue(s: seq<byte>, q: byte)
    requires IsQuote(q) && RescanSafe(Decode(s)) && AsciiUnits(Decode(s))
    ensures Decode(Rewrite(s, q)) == Decode(s)
    decreases |s|
  {
    if |s| < 2 {
    } else if s[0] != Backslash {
      DecodePlain(s[0], s[1..]);
      assert [s[0]] + s[1..] == s;
      RescanSafeSuffix([RawUnit(s[0])], Decode(s[1..]));
      RewriteKeepsValue(s[1..], q);
      DecodePlain(s[0], Rewrite(s[1..], q));
    } else {
      match EscapeAction(s, q)
      case Keep =>
        KeptIsTwoByteEscape(s, q);
        var t := s[2..];
        DecodeKeptEscape(s);
        RescanSafeSuffix([KeptUnit(s[1])], Decode(t));
        RewriteKeepsValue(t, q);
        KeptEscapeKeepsValue(s, Rewrite(t, q));
      case Replace(n, e) =>
        if HighNumericEscape(s) {
          HighNumericEscapeNotAscii(s);
          assert false;
        }
        ReplaceKeepsValue(s, q);
        RewriteKeepsValue(e + s[n..], q);
    }
  }

  /** `"\xe9"`: the escape for the code unit 0xE9 is written back as the
      raw byte 0xE9, which in UTF-8 source text is the first byte of a
      multi-byte character, not the character é. The rescan raises no NUL
      issue here; only the code unit is too large to write raw. */
  lemma HighEscapeWrittenRaw()
    ensures var s := [Backslash, LowerX, LowerE, Digit9];
            && Rewrite(s, DoubleQuote) == [0xE9]
            && Decode(s) == [Char(0xE9)]
            && Decode(Rewrite(s, DoubleQuote)) == [Utf8Byte(0xE9)]
            && RescanSafe(Decode(s)) && !AsciiUnits(Decode(s))
  {
    var s := [Backslash, LowerX, LowerE, Digit9];
    assert HexByte(LowerE, Digit9) == 0xE9;
    assert EscapeAction(s, DoubleQuote) == Replace(4, [0xE9]);
    assert s[4..] == [] && [0xE9] + s[4..] == [0xE9];
    assert Rewrite(s, DoubleQuote) == RewriteEscape(s, DoubleQuote) == Rewrite([0xE9], DoubleQuote);
    assert EscapeValue(s) == Lexeme([Char(0xE9)], 4);
    assert Decode(s) == DecodeEscape(s) == [Char(0xE9)] + Decode([]);
    assert Decode([0xE9]) == [Utf8Byte(0xE9)] + Decode([]);
    assert Decode(s)[0].Char? && Decode(s)[0].c >= 0x80;
  }

  /** The minifier's decision, corrected to keep a `\x` or octal escape
      whose code unit is 0x80 or above instead of writing it raw. */
  function EscapeActionCorrected(s: seq<byte>, q: byte): (a: Action)
    requires |s| >= 2 && s[0] == Backslash && IsQuote(q)
    ensures a.Replace? ==> 2 <= a.consumed <= |s| && |a.emit| < a.consumed
    ensures HighNumericEscape(s) ==> a.Keep? && EscapeAction(s, q).Replace?
    ensures !HighNumericEscape(s) ==> a == EscapeAction(s, q)
  {
    if HighNumericEscape(s) then
      assert !AlwaysKept(s, q) by {
        HighNumericEscapeDecode(s, []);
      }
      Keep
    else EscapeAction(s, q)
  }

  /** The scan with push-back under the corrected decision. */
  function RewriteCorrected(s: seq<byte>, q: byte): (r: seq<byte>)
    requires IsQuote(q)
    ensures |r| <= |s|
    decreases |s|, 1
  {
    if |s| < 2 then s
    else if s[0] != Backslash then [s[0]] + RewriteCorrected(s[1..], q)
    else RewriteEscapeCorrected(s, q)
  }

  function RewriteEscapeCorrected(s: seq<byte>, q: byte): (r: seq<byte>)
    requires IsQuote(q) && |s| >= 2 && s[0] == Backslash
    ensures |r| <= |s|
    decreases |s|, 0
  {
    match EscapeActionCorrected(s, q)
    case Keep => s[..2] + RewriteCorrected(s[2..], q)
    case Replace(n, e) => RewriteCorrected(e + s[n..], q)
  }

  /** The corrected rewrite copies a high numeric escape whole. */
  lemma RewriteCorrectedCopiesHighEscape(s: seq<byte>, q: byte)
    requires IsQuote(q) && |s| >= 2 && s[0] == Backslash && HighNumericEscape(s)
    ensures |s| >= 4 && RewriteCorrected(s, q) == s[..4] + RewriteCorrected(s[4..], q)
  {
    HighNumericEscapeDecode(s, []);
    var t := s[2..];
    assert t[1..] == s[3..] && s[3..][1..] == s[4..];
    assert RewriteCorrected(s, q) == RewriteEscapeCorrected(s, q) == s[..2] + RewriteCorrected(t, q);
    assert RewriteCorrected(t, q) == [s[2]] + RewriteCorrected(s[3..], q);
    if |s| == 4 {
      assert RewriteCorrected(s[3..], q) == s[3..] == [s[3]];
    } else {
      assert RewriteCorrected(s[3..], q) == [s[3]] + RewriteCorrected(s[4..], q);
    }
    assert s[..2] + ([s[2]] + ([s[3]] + RewriteCorrected(s[4..], q))) == s[..4] + RewriteCorrected(s[4..], q);
  }

  /** The corrected minifier keeps the value whenever the rescan cannot
      merge a NUL with an octal digit, whatever the code units. */
  lemma {:induction false} RewriteCorrectedKeepsValue(s: seq<byte>, q: byte)
    requires IsQuote(q) && RescanSafe(Decode(s))
    ensures Decode(RewriteCorrected(s, q)) == Decode(s)
    decreases |s|
  {
    if |s| < 2 {
    } else if s[0] != Backslash {
      DecodePlain(s[0], s[1..]);
      assert [s[0]] + s[1..] == s;
      RescanSafeSuffix([RawUnit(s[0])], Decode(s[1..]));
      RewriteCorrectedKeepsValue(s[1..], q);
      DecodePlain(s[0], RewriteCorrected(s[1..], q));
    } else if HighNumericEscape(s) {
      var t := s[4..];
      HighNumericEscapeDecode(s, t);
      assert s[..4] + t == s;
      RescanSafeSuffix(EscapeValue(s).units, Decode(t));
      RewriteCorrectedKeepsValue(t, q);
      RewriteCorrectedCopiesHighEscape(s, q);
      HighNumericEscapeDecode(s, RewriteCorrected(t, q));
    } else {
      match EscapeAction(s, q)
      case Keep =>
        KeptIsTwoByteEscape(s, q);
        var t := s[2..];
        DecodeKeptEscape(s);
        RescanSafeSuffix([KeptUnit(s[1])], Decode(t));
        RewriteCorrectedKeepsValue(t, q);
        KeptEscapeKeepsValue(s, RewriteCorrected(t, q));
      case Replace(n, e) =>
        ReplaceKeepsValue(s, q);
        RewriteCorrectedKeepsValue(e + s[n..], q);
    }
  }

  // ---------------------------------------------------------------------
  // The body still ends at the closing quote
  // ---------------------------------------------------------------------

  /** A body the lexer reads up to the closing quote and no further: a
      backslash takes the next byte with it (a CR LF pair as one line
      terminator), and there is no raw quote, LF or CR, which would end or
      break the literal, and no trailing lone backslash, which would take
      the closing quote. */
  predicate ClosedBody(s: seq<byte>, q: byte)
    decreases |s|
  {
    if |s| == 0 then true
    else if s[0] == Backslash then
      && |s| >= 2
      && if s[1] == CR && |s| >= 3 && s[2] == LF then ClosedBody(s[3..], q) else ClosedBody(s[2..], q)
    else s[0] != q && s[0] != LF && s[0] != CR && ClosedBody(s[1..], q)
  }

  /** Closed bodies put one after the other form a closed body. */
  lemma {:induction false} ClosedBodyConcat(a: seq<byte>, b: seq<byte>, q: byte)
    requires ClosedBody(a, q) && ClosedBody(b, q)
    ensures ClosedBody(a + b, q)
    decreases |a|
  {
    if |a| == 0 {
      assert a + b == b;
    } else {
      var w := a + b;
      assert w[0] == a[0];
      if a[0] != Backslash {
        assert w[1..] == a[1..] + b;
        ClosedBodyConcat(a[1..], b, q);
      } else if a[1] == CR && |a| >= 3 && a[2] == LF {
        assert w[1] == CR && w[2] == LF;
        assert w[3..] == a[3..] + b;
        ClosedBodyConcat(a[3..], b, q);
      } else {
        assert w[1] == a[1];
        assert w[2..] == a[2..] + b;
        ClosedBodyConcat(a[2..], b, q);
        if a[1] == CR && |w| >= 3 {
          ClosedBodyNoLeadingLF(a[2..] + b, q);
        }
      }
    }
  }

  /** A closed body does not begin with a raw LF. */
  lemma ClosedBodyNoLeadingLF(s: seq<byte>, q: byte)
    requires ClosedBody(s, q) && |s| > 0
    ensures s[0] != LF
  {
  }

  /** Skipping bytes that are not backslashes keeps a body closed. */
  lemma {:induction false} ClosedBodySkipPlain(t: seq<byte>, k: nat, q: byte)
    requires ClosedBody(t, q) && k <= |t|
    requires forall i | 0 <= i < k :: t[i] != Backslash
    ensures ClosedBody(t[k..], q)
    decreases k
  {
    if k > 0 {
      ClosedBodySkipPlain(t[1..], k - 1, q);
      assert t[1..][k - 1..] == t[k..];
    }
  }

  /** A decoded byte is escaped exactly when a body cannot hold it raw,
      so whatever is emitted, the closing quote still closes it. */
  lemma EmitClosed(v: byte, q: byte)
    ensures |Emit(v, q)| == 2 <==> MustEscape(v, q)
    ensures ClosedBody(Emit(v, q), q)
  {
  }

  /** After a backslash and the byte it takes, a closed body goes on
      closed, unless the pair is the start of a CR LF continuation. */
  lemma ClosedBodyAfterPair(s: seq<byte>, q: byte)
    requires ClosedBody(s, q) && |s| >= 2 && s[0] == Backslash
    requires !(s[1] == CR && |s| >= 3 && s[2] == LF)
    ensures ClosedBody(s[2..], q)
  {
  }

  /** What follows a replaced escape in a closed body is closed, and so is
      its replacement. */
  lemma ReplacementClosed(s: seq<byte>, q: byte)
    requires |s| >= 2 && s[0] == Backslash && IsQuote(q) && ClosedBody(s, q)
    requires EscapeAction(s, q).Replace?
    ensures var a := EscapeAction(s, q); ClosedBody(a.emit, q) && ClosedBody(s[a.consumed..], q)
  {
    var c := s[1];
    if s[1] == CR && |s| >= 3 && s[2] == LF {
      assert EscapeAction(s, q) == Replace(3, []);
      return;
    }
    ClosedBodyAfterPair(s, q);
    var t := s[2..];
    if IsLineContinuation(s) {
      if c == Utf8Lead {
        assert EscapeAction(s, q) == Replace(4, []);
        assert t[0] == Utf8Cont && t[1] != Backslash;
        ClosedBodySkipPlain(t, 2, q);
        assert t[2..] == s[4..];
      } else {
        assert EscapeAction(s, q) == Replace(2, []);
      }
    } else if c == LowerX {
      assert EscapeAction(s, q) == Replace(4, Emit(HexByte(s[2], s[3]), q));
      EmitClosed(HexByte(s[2], s[3]), q);
      assert IsHexDigit(t[0]) && IsHexDigit(t[1]);
      ClosedBodySkipPlain(t, 2, q);
      assert t[2..] == s[4..];
    } else if IsOctalDigit(c) {
      var m := OctalDigitCount(s);
      assert EscapeAction(s, q) == Replace(1 + m, Emit(OctalEscapeValue(s), q));
      EmitClosed(OctalEscapeValue(s), q);
      assert m >= 2 ==> IsOctalDigit(t[0]);
      assert m == 3 ==> IsOctalDigit(t[1]);
      ClosedBodySkipPlain(t, m - 1, q);
      assert t[m - 1..] == s[1 + m..];
    } else {
      assert EscapeAction(s, q).consumed == 2;
    }
  }

  /** Minifying a closed body gives a closed body: no byte the rewrite
      writes raw ends or breaks the literal. */
  lemma {:induction false} RewriteKeepsClosed(s: seq<byte>, q: byte)
    requires IsQuote(q) && ClosedBody(s, q)
    ensures ClosedBody(Rewrite(s, q), q)
    decreases |s|
  {
    if |s| < 2 {
    } else if s[0] != Backslash {
      RewriteKeepsClosed(s[1..], q);
      var w := [s[0]] + Rewrite(s[1..], q);
      assert w[1..] == Rewrite(s[1..], q);
    } else {
      match EscapeAction(s, q)
      case Keep =>
        assert s[1] != CR;
        RewriteKeepsClosed(s[2..], q);
        var w := s[..2] + Rewrite(s[2..], q);
        assert w[2..] == Rewrite(s[2..], q);
      case Replace(n, e) =>
        ReplacementClosed(s, q);
        ClosedBodyConcat(e, s[n..], q);
        RewriteKeepsClosed(e + s[n..], q);
    }
  }

  /** The corrected minifier keeps a body closed as well. */
  lemma {:induction false} RewriteCorrectedKeepsClosed(s: seq<byte>, q: byte)
    requires IsQuote(q) && ClosedBody(s, q)
    ensures ClosedBody(RewriteCorrected(s, q), q)
    decreases |s|
  {
    if |s| < 2 {
    } else if s[0] != Backslash {
      RewriteCorrectedKeepsClosed(s[1..], q);
      var w := [s[0]] + RewriteCorrected(s[1..], q);
      assert w[1..] == RewriteCorrected(s[1..], q);
    } else {
      match EscapeActionCorrected(s, q)
      case Keep =>
        assert s[1] != CR;
        RewriteCorrectedKeepsClosed(s[2..], q);
        var w := s[..2] + RewriteCorrected(s[2..], q);
        assert w[2..] == RewriteCorrected(s[2..], q);
      case Replace(n, e) =>
        ReplacementClosed(s, q);
        ClosedBodyConcat(e, s[n..], q);
        RewriteCorrectedKeepsClosed(e + s[n..], q);
    }
  }

  // ---------------------------------------------------------------------
  // What the rewrite leaves alone, and where rescanning goes wrong
  // ---------------------------------------------------------------------

  /** Every escape the scan meets in `s` is one the minifier keeps. */
  predicate Minimal(s: seq<byte>, q: byte)
    requires IsQuote(q)
    decreases |s|
  {
    if |s| < 2 then true
    else if s[0] != Backslash then Minimal(s[1..], q)
    else EscapeAction(s, q).Keep? && Minimal(s[2..], q)
  }

  /** The rewrite leaves a body unchanged exactly when every escape in it
      is kept, and otherwise makes it strictly shorter. */
  lemma {:induction false} RewriteFixedIffMinimal(s: seq<byte>, q: byte)
    requires IsQuote(q)
    ensures Rewrite(s, q) == s <==> Minimal(s, q)
    ensures !Minimal(s, q) ==> |Rewrite(s, q)| < |s|
    decreases |s|
  {
    if |s| < 2 {
    } else if s[0] != Backslash {
      RewriteFixedIffMinimal(s[1..], q);
      var r := Rewrite(s[1..], q);
      assert Rewrite(s, q) == [s[0]] + r;
      assert s == [s[0]] + s[1..];
      assert ([s[0]] + r)[1..] == r;
    } else {
      assert Rewrite(s, q) == RewriteEscape(s, q);
      match EscapeAction(s, q)
      case Keep =>
        RewriteFixedIffMinimal(s[2..], q);
        var r := Rewrite(s[2..], q);
        assert s == s[..2] + s[2..];
        assert (s[..2] + r)[2..] == r;
      case Replace(n, e) =>
    }
  }

  /** A high numeric escape is replaced by its code unit written as one
      raw byte, which then reads as a piece of a UTF-8 character. */
  lemma HighEscapeReplacedRaw(s: seq<byte>, q: byte)
    requires |s| >= 2 && s[0] == Backslash && IsQuote(q) && HighNumericEscape(s)
    ensures |s| >= 4 && EscapeValue(s).units[0].Char?
    ensures var v := EscapeValue(s).units[0].c;
            && v >= 0x80
            && EscapeAction(s, q) == Replace(4, [v])
            && Decode(s) == [Char(v)] + Decode(s[4..])
            && Decode([v] + s[4..]) == [Utf8Byte(v)] + Decode(s[4..])
  {
    HighNumericEscapeDecode(s, s[4..]);
    assert s[..4] + s[4..] == s;
    var v := EscapeValue(s).units[0].c;
    HighEscapeAction(s, q, v);
    DecodePlain(v, s[4..]);
  }

  lemma HighEscapeAction(s: seq<byte>, q: byte, v: byte)
    requires |s| >= 4 && s[0] == Backslash && IsQuote(q) && HighNumericEscape(s)
    requires EscapeValue(s).units == [Char(v)] && v >= 0x80
    ensures EscapeAction(s, q) == Replace(4, [v])
  {
    assert Emit(v, q) == [v];
    if s[1] == LowerX {
      assert v == HexByte(s[2], s[3]);
    } else {
      assert v == OctalEscapeValue(s) && OctalDigitCount(s) == 3;
    }
  }

  /** Reading a code unit of 0x80 or above as a raw UTF-8 byte instead
      keeps a value safe to rescan. */
  lemma HighUnitKeepsSafe(v: byte, w: seq<Unit>)
    requires v >= 0x80 && RescanSafe([Char(v)] + w)
    ensures RescanSafe([Utf8Byte(v)] + w)
  {
    RescanSafeSuffix([Char(v)], w);
    var u := [Utf8Byte(v)] + w;
    forall k | 0 <= k < |u| - 1
      ensures !NulBeforeOctalDigit(u, k)
    {
      if k > 0 {
        assert u[k] == w[k - 1] && u[k + 1] == w[k];
        assert !NulBeforeOctalDigit(w, k - 1);
      }
    }
    assert forall x | x in u :: x == Utf8Byte(v) || x in w;
  }

  /** In a value safe to rescan, the unit after a NUL is not an octal
      digit. */
  lemma NulUnitFollower(w: seq<Unit>)
    requires RescanSafe([Char(Nul)] + w)
    ensures |w| == 0 || !(w[0].Char? && IsOctalDigit(w[0].c))
  {
    if |w| > 0 {
      var v := [Char(Nul)] + w;
      assert v[0] == Char(Nul) && v[1] == w[0];
      assert !NulBeforeOctalDigit(v, 0);
    }
  }

  /** Minifying a body that is safe to rescan gives a body in which every
      escape is one the minifier keeps; and when the minified body starts
      with a raw octal digit, the value starts with that digit. */
  lemma {:induction false} RewriteReachesMinimal(s: seq<byte>, q: byte)
    requires IsQuote(q) && RescanSafe(Decode(s))
    ensures Minimal(Rewrite(s, q), q)
    ensures var r := Rewrite(s, q);
            |r| > 0 && IsOctalDigit(r[0]) ==> |Decode(s)| > 0 && Decode(s)[0] == Char(r[0])
    decreases |s|
  {
    if |s| < 2 {
      if |s| == 1 {
        assert Decode(s) == [RawUnit(s[0])] + Decode(s[1..]);
      }
    } else if s[0] != Backslash {
      var t := s[1..];
      DecodePlain(s[0], t);
      assert [s[0]] + t == s;
      RescanSafeSuffix([RawUnit(s[0])], Decode(t));
      RewriteReachesMinimal(t, q);
      var r := Rewrite(t, q);
      assert Rewrite(s, q) == [s[0]] + r;
      assert ([s[0]] + r)[1..] == r;
    } else {
      match EscapeAction(s, q)
      case Keep =>
        KeptIsTwoByteEscape(s, q);
        assert AlwaysKept(s, q);
        var t := s[2..];
        DecodeKeptEscape(s);
        RescanSafeSuffix([KeptUnit(s[1])], Decode(t));
        if s[1] == Digit0 {
          NulUnitFollower(Decode(t));
        }
        RewriteReachesMinimal(t, q);
        var r := Rewrite(t, q);
        var w := s[..2] + r;
        assert Rewrite(s, q) == w;
        assert w[0] == Backslash && w[1] == s[1] && w[2..] == r;
        assert |w| > 2 ==> w[2] == r[0];
        assert AlwaysKept(w, q);
      case Replace(n, e) =>
        var t := s[n..];
        if HighNumericEscape(s) {
          HighEscapeReplacedRaw(s, q);
          HighUnitKeepsSafe(EscapeValue(s).units[0].c, Decode(t));
        } else {
          ReplaceKeepsValue(s, q);
        }
        RewriteReachesMinimal(e + t, q);
    }
  }

  /** Minifying a body that is safe to rescan a second time changes
      nothing. */
  lemma RewriteIdempotent(s: seq<byte>, q: byte)
    requires IsQuote(q) && RescanSafe(Decode(s))
    ensures Rewrite(Rewrite(s, q), q) == Rewrite(s, q)
  {
    RewriteReachesMinimal(s, q);
    RewriteFixedIffMinimal(Rewrite(s, q), q);
  }

  /** `"\0\x31"`: the first pass gives `\01`, which the second pass turns
      into the raw byte 0x01, so minifying twice is not minifying once
      when a NUL is followed by an octal digit. */
  lemma MinifyTwiceMergesNulWithDigit()
    ensures var s := [Backslash, Digit0, Backslash, LowerX, Digit0 + 3, Digit1];
            && Rewrite(s, DoubleQuote) == [Backslash, Digit0, Digit1]
            && Rewrite(Rewrite(s, DoubleQuote), DoubleQuote) == [0x01]
            && !RescanSafe(Decode(s))
  {
    KeptNulMeetsDecodedDigit();
    var s := [Backslash, Digit0, Backslash, LowerX, Digit0 + 3, Digit1];
    var r := [Backslash, Digit0, Digit1];
    assert OctalDigitCount(r) == 2 && OctalEscapeValue(r) == 0x01;
    assert EscapeAction(r, DoubleQuote) == Replace(3, [0x01]);
    assert r[3..] == [] && [0x01] + r[3..] == [0x01];
    assert Rewrite(r, DoubleQuote) == RewriteEscape(r, DoubleQuote) == Rewrite([0x01], DoubleQuote);
    assert NulBeforeOctalDigit(Decode(s), 0);
  }

  /** Minifying a token whose body is safe to rescan gives a token that
      minifying again returns unchanged. */
  lemma MinifyTwiceIsOnce(lit: seq<byte>)
    requires 3 <= |lit| && IsQuote(lit[0]) && RescanSafe(Decode(lit[1..|lit| - 1]))
    ensures var r := [lit[0]] + Rewrite(lit[1..|lit| - 1], lit[0]) + [lit[|lit| - 1]];
            && r[0] == lit[0] && Minimal(r[1..|r| - 1], r[0])
            && [r[0]] + Rewrite(r[1..|r| - 1], r[0]) + [r[|r| - 1]] == r
  {
    var q := lit[0];
    var body := Rewrite(lit[1..|lit| - 1], q);
    var r := [q] + body + [lit[|lit| - 1]];
    assert r[1..|r| - 1] == body;
    RewriteReachesMinimal(lit[1..|lit| - 1], q);
    RewriteFixedIffMinimal(body, q);
  }

  /** `"\x001"`: the hex escape for NUL is re-escaped as `\0`, which the
      rescan merges with the following `1` into the octal escape for 0x01,
      written raw. The value changes from NUL, `1` to 0x01. */
  lemma RescanMergesNulWithDigit()
    ensures var s := [Backslash, LowerX, Digit0, Digit0, Digit1];
            && Rewrite(s, DoubleQuote) == [0x01]
            && Decode(s) == [Char(Nul), Char(Digit1)]
            && Decode(Rewrite(s, DoubleQuote)) == [Char(0x01)]
            && !RescanSafe(Decode(s))
  {
    var s := [Backslash, LowerX, Digit0, Digit0, Digit1];
    var t := [Backslash, Digit0, Digit1];
    assert EscapeAction(s, DoubleQuote) == Replace(4, [Backslash, Digit0]);
    assert s[4..] == [Digit1] && [Backslash, Digit0] + s[4..] == t;
    assert Rewrite(s, DoubleQuote) == RewriteEscape(s, DoubleQuote) == Rewrite(t, DoubleQuote);
    assert EscapeAction(t, DoubleQuote) == Replace(3, [0x01]);
    assert Rewrite(t, DoubleQuote) == RewriteEscape(t, DoubleQuote) == Rewrite([0x01], DoubleQuote);
    assert EscapeValue(s) == Lexeme([Char(Nul)], 4);
    assert Decode([Digit1]) == [Char(Digit1)] + Decode([Digit1][1..]) == [Char(Digit1)];
    assert Decode(s) == DecodeEscape(s) == [Char(Nul)] + Decode([Digit1]);
    assert Decode([0x01]) == [Char(0x01)] + Decode([]);
    assert NulBeforeOctalDigit(Decode(s), 0);
  }

  /** `"\0\x31"`: the kept `\0` is followed by the decoded `1`, giving
      the octal escape `\01`. The value changes from NUL, `1` to 0x01. */
  lemma KeptNulMeetsDecodedDigit()
    ensures var s := [Backslash, Digit0, Backslash, LowerX, Digit0 + 3, Digit1];
            && Rewrite(s, DoubleQuote) == [Backslash, Digit0, Digit1]
            && Decode(s) == [Char(Nul), Char(Digit1)]
            && Decode(Rewrite(s, DoubleQuote)) == [Char(0x01)]
  {
    var s := [Backslash, Digit0, Backslash, LowerX, Digit0 + 3, Digit1];
    var t := s[2..];
    assert t == [Backslash, LowerX, Digit0 + 3, Digit1];
    assert EscapeAction(s, DoubleQuote) == Keep;
    assert Rewrite(s, DoubleQuote) == RewriteEscape(s, DoubleQuote) == s[..2] + Rewrite(t, DoubleQuote);
    assert HexByte(Digit0 + 3, Digit1) == Digit1;
    assert EscapeAction(t, DoubleQuote) == Replace(4, [Digit1]);
    assert t[4..] == [] && [Digit1] + t[4..] == [Digit1];
    assert Rewrite(t, DoubleQuote) == RewriteEscape(t, DoubleQuote) == Rewrite([Digit1], DoubleQuote);
    var r := [Backslash, Digit0, Digit1];
    assert s[..2] + [Digit1] == r;
    KeptEscapeValue(s);
    assert EscapeValue(t) == Lexeme([Char(Digit1)], 4);
    assert Decode(t) == DecodeEscape(t) == [Char(Digit1)] + Decode(t[4..]);
    assert Decode(t) == [Char(Digit1)];
    assert Decode(s) == DecodeEscape(s) == [Char(Nul)] + Decode(t);
    assert OctalDigitCount(r) == 2 && OctalEscapeValue(r) == 0x01;
    assert Decode(r) == DecodeEscape(r) == [Char(0x01)] + Decode([]);
  }

  /** The escape rules on examples: control-character escapes become raw
      bytes, a CRLF continuation disappears, hex and octal escapes are
      decoded (NUL, LF, CR, backslash and the quote re-escaped), a third
      octal digit is taken only while the value is below 32, a malformed
      `\x` and the escaped quote are kept, and the other quote loses its
      backslash. */
  lemma EscapeRuleExamples()
    ensures EscapeAction([Backslash, LowerT], DoubleQuote) == Replace(2, [Tab])
    ensures EscapeAction([Backslash, LowerV], DoubleQuote) == Replace(2, [VerticalTab])
    ensures EscapeAction([Backslash, CR, LF], DoubleQuote) == Replace(3, [])
    ensures EscapeAction([Backslash, Utf8Cont, Utf8Cont], DoubleQuote) == Replace(2, [Utf8Cont])
    ensures EscapeAction([Backslash, LowerX, Digit0 + 4, Digit1], DoubleQuote) == Replace(4, [UpperA])
    ensures EscapeAction([Backslash, LowerX, Digit0, LowerA], DoubleQuote) == Replace(4, [Backslash, LowerN])
    ensures EscapeAction([Backslash, LowerX, Digit0 + 2, Digit0 + 2], DoubleQuote) == Replace(4, [Backslash, DoubleQuote])
    ensures EscapeAction([Backslash, LowerX, LowerA], DoubleQuote) == Keep
    ensures EscapeAction([Backslash, Digit0 + 4, Digit0, Digit0], DoubleQuote) == Replace(3, [0x20])
    ensures EscapeAction([Backslash, Digit0 + 3, Digit7, Digit7], DoubleQuote) == Replace(4, [0xFF])
    ensures EscapeAction([Backslash, Digit0, Digit0 + 3], SingleQuote) == Replace(3, [0x03])
    ensures EscapeAction([Backslash, Digit0], DoubleQuote) == Keep
    ensures EscapeAction([Backslash, DoubleQuote], DoubleQuote) == Keep
    ensures EscapeAction([Backslash, SingleQuote], DoubleQuote) == Replace(2, [SingleQuote])
  {
    assert HexByte(Digit0 + 4, Digit1) == UpperA;
    assert HexByte(Digit0, LowerA) == LF;
    assert HexByte(Digit0 + 2, Digit0 + 2) == DoubleQuote;
  }

  // ---------------------------------------------------------------------
  // The in-place algorithm
  // ---------------------------------------------------------------------

  /** `len` bytes of `b` from `src` copied to `dst` (Go's copy within one
      slice, forward). */
  function CopyWithin(b: seq<byte>, dst: nat, src: nat, len: nat): (r: seq<byte>)
    requires dst <= src && src + len <= |b|
    ensures |r| == |b| && r[..dst] == b[..dst] && r[dst..dst + len] == b[src..src + len]
    ensures r[dst + len..] == b[dst + len..]
  {
    b[..dst] + b[src..src + len] + b[dst + len..]
  }

  /** The decoded byte `v` of an escape ending at `p` written in place:
      raw at `p`, or re-escaped in `p - 1` and `p`. */
  method WriteDecoded(b: seq<byte>, p: nat, v: byte, quote: byte) returns (b': seq<byte>, back: nat)
    requires IsQuote(quote) && 1 <= p < |b|
    ensures back == |Emit(v, quote)| - 1 && |b'| == |b|
    ensures b'[..p - back] == b[..p - back] && b'[p - back..] == Emit(v, quote) + b[p + 1..]
  {
    b', back := b[p := v], 0;
    if v == Nul || v == Backslash || v == quote || v == LF || v == CR {
      if v == Nul {
        b' := b'[p := Digit0];
      } else if v == LF {
        b' := b'[p := LowerN];
      } else if v == CR {
        b' := b'[p := LowerR];
      }
      back := 1;
      b' := b'[p - 1 := Backslash];
      assert forall k | p + 1 <= k < |b| :: b'[k] == b[k];
      assert b'[p + 1..] == b[p + 1..];
      assert b'[p - 1..] == [b'[p - 1], b'[p]] + b'[p + 1..];
    } else {
      assert b'[p..] == [v] + b[p + 1..];
    }
  }

  /** `b'` is `b` with the escape at `b[i]` replaced in place as the
      scanner decides: its decoded bytes end where the escape ended, `n`
      bytes after `i`, and nothing before `i` or after the escape
      changes. */
  predicate Replaced(b: seq<byte>, i: nat, quote: byte, b': seq<byte>, n: nat)
    requires IsQuote(quote) && i + 1 < |b| - 1 && b[i] == Backslash
  {
    var a := EscapeAction(b[i..|b| - 1], quote);
    a.Replace? && Spliced(b, i, b', n, a.consumed, a.emit)
  }

  /** `b'` is `b` with the `c` bytes at `i` replaced in place by the `e`
      bytes, which end `n` bytes after `i`; nothing before `i` or after
      the `c` bytes changes. */
  predicate Spliced(b: seq<byte>, i: nat, b': seq<byte>, n: nat, c: nat, e: seq<byte>) {
    && |b'| == |b| && n + |e| == c && |e| < c && i + c <= |b| - 1
    && b'[..i] == b[..i] && b'[i + n..] == e + b[i + c..]
  }

  /** A `\x` escape: replaced when two hex digits follow, kept
      otherwise. */
  method HexEscape(b: seq<byte>, i: nat, quote: byte) returns (keep: bool, b': seq<byte>, n: nat)
    requires IsQuote(quote) && 1 <= i && i + 1 < |b| - 1 && b[i] == Backslash && b[i + 1] == LowerX
    ensures keep <==> EscapeAction(b[i..|b| - 1], quote).Keep?
    ensures keep ==> b' == b
    ensures !keep ==> Replaced(b, i, quote, b', n)
  {
    var last := |b| - 1;
    ghost var s := b[i..last];
    assert s[1] == LowerX && (|s| > 3 ==> s[2] == b[i + 2] && s[3] == b[i + 3]);
    if i + 3 < last && IsHexDigit(b[i + 2]) && IsHexDigit(b[i + 3]) {
      var v := HexByte(b[i + 2], b[i + 3]);
      var back;
      b', back := WriteDecoded(b, i + 3, v, quote);
      keep, n := false, 3 - back;
      assert b[i + 4..] == b[i..][4..];
    } else {
      keep, b', n := true, b, 0;
    }
  }

  /** The scanner's decision for an octal escape it does not keep. */
  lemma OctalAction(s: seq<byte>, q: byte)
    requires |s| >= 2 && s[0] == Backslash && IsQuote(q) && IsOctalDigit(s[1])
    requires s[1] == Digit0 ==> |s| > 2 && IsOctalDigit(s[2])
    ensures EscapeAction(s, q) == Replace(1 + OctalDigitCount(s), Emit(OctalEscapeValue(s), q))
  {
  }

  /** The octal digits at `b[i + 1]`, counted and accumulated as the
      minifier does. */
  method OctalDigits(b: seq<byte>, i: nat) returns (num: byte, n: nat)
    requires i + 1 < |b| - 1 && IsOctalDigit(b[i + 1])
    ensures n == OctalDigitCount(b[i..|b| - 1]) && num == OctalEscapeValue(b[i..|b| - 1])
  {
    var last := |b| - 1;
    ghost var s := b[i..last];
    assert s[1] == b[i + 1];
    assert |s| > 2 ==> s[2] == b[i + 2];
    assert |s| > 3 ==> s[3] == b[i + 3];
    num, n := b[i + 1] - Digit0, 1;
    if i + 2 < last && IsOctalDigit(b[i + 2]) {
      num, n := num * 8 + (b[i + 2] - Digit0), n + 1;
      if num < 32 && i + 3 < last && IsOctalDigit(b[i + 3]) {
        num, n := num * 8 + (b[i + 3] - Digit0), n + 1;
      }
    }
  }

  /** A legacy octal escape (`\0` before an octal digit included): up to
      three digits, decoded and written back. */
  method OctalEscape(b: seq<byte>, i: nat, quote: byte) returns (b': seq<byte>, n: nat)
    requires IsQuote(quote) && 1 <= i && i + 1 < |b| - 1 && b[i] == Backslash && IsOctalDigit(b[i + 1])
    requires b[i + 1] == Digit0 ==> i + 2 < |b| - 1 && IsOctalDigit(b[i + 2])
    ensures Replaced(b, i, quote, b', n)
  {
    ghost var s := b[i..|b| - 1];
    assert s[0] == Backslash && s[1] == b[i + 1] && (|s| > 2 ==> s[2] == b[i + 2]);
    OctalAction(s, quote);
    var num, m := OctalDigits(b, i);
    var back;
    b', back := WriteDecoded(b, i + m, num, quote);
    n := m - back;
    assert b'[..i] == b'[..i + n][..i];
  }

  /** One escape at `b[i]`, handled in place as the minifier does: either
      the escape is kept, or its decoded bytes are written at the end of
      the bytes it spans. The result is exactly the scanner's decision for
      the rest of the body. */
  method ScanEscape(b: seq<byte>, i: nat, quote: byte) returns (keep: bool, b': seq<byte>, n: nat)
    requires IsQuote(quote) && 1 <= i && i + 1 < |b| - 1 && b[i] == Backslash
    ensures keep <==> EscapeAction(b[i..|b| - 1], quote).Keep?
    ensures keep ==> b' == b
    ensures !keep ==> Replaced(b, i, quote, b', n)
  {
    var last := |b| - 1;
    ghost var s := b[i..last];
    assert s[1] == b[i + 1];
    assert |s| > 2 ==> s[2] == b[i + 2];
    assert |s| > 3 ==> s[3] == b[i + 3];
    var c := b[i + 1];
    if (c == Digit0 && (i + 2 == last || !IsOctalDigit(b[i + 2]))) || c == Backslash || c == quote
       || c == LowerN || c == LowerR || c == LowerU {
      return true, b, 0;
    }
    if c == LowerX {
      keep, b', n := HexEscape(b, i, quote);
      return;
    }
    keep := false;
    if IsOctalDigit(c) {
      b', n := OctalEscape(b, i, quote);
    } else {
      b', n := SimpleEscape(b, i, quote);
    }
  }

  /** The remaining escapes: a line continuation is removed, `\t`, `\f`,
      `\v` and `\b` become their control characters, and any other
      escaped byte stands for itself. Only the backslash is dropped in
      place; the byte after it is rewritten when needed. */
  method SimpleEscape(b: seq<byte>, i: nat, quote: byte) returns (b': seq<byte>, n: nat)
    requires IsQuote(quote) && 1 <= i && i + 1 < |b| - 1 && b[i] == Backslash
    requires !AlwaysKept(b[i..|b| - 1], quote) && b[i + 1] != LowerX && !IsOctalDigit(b[i + 1])
    ensures Replaced(b, i, quote, b', n)
  {
    var last := |b| - 1;
    ghost var s := b[i..last];
    assert s[1] == b[i + 1];
    assert |s| > 2 ==> s[2] == b[i + 2];
    assert |s| > 3 ==> s[3] == b[i + 3];
    var c := b[i + 1];
    b', n := b, 1;
    if c == LF || c == CR || (c == Utf8Lead && i + 3 < last && b[i + 2] == Utf8Cont && (b[i + 3] == LineSepLast || b[i + 3] == ParaSepLast)) {
      if c == Utf8Lead {
        n := 4;
      } else if c == CR && i + 2 < last && b[i + 2] == LF {
        n := 3;
      } else {
        n := 2;
      }
      assert EscapeAction(s, quote) == Replace(n, []);
      SplicedDrop(b, i, n);
    } else if c == LowerT {
      b' := b'[i + 1 := Tab];
      assert EscapeAction(s, quote) == Replace(2, [Tab]);
      SplicedOne(b, i, Tab);
    } else if c == LowerF {
      b' := b'[i + 1 := FormFeed];
      assert EscapeAction(s, quote) == Replace(2, [FormFeed]);
      SplicedOne(b, i, FormFeed);
    } else if c == LowerV {
      b' := b'[i + 1 := VerticalTab];
      assert EscapeAction(s, quote) == Replace(2, [VerticalTab]);
      SplicedOne(b, i, VerticalTab);
    } else if c == LowerB {
      b' := b'[i + 1 := Backspace];
      assert EscapeAction(s, quote) == Replace(2, [Backspace]);
      SplicedOne(b, i, Backspace);
    } else {
      assert EscapeAction(s, quote) == Replace(2, [c]);
      assert b == b[i + 1 := c];
      SplicedOne(b, i, c);
    }
  }

  /** Dropping the backslash of a two-byte escape rewritten to one byte
      in place. */
  lemma SplicedOne(b: seq<byte>, i: nat, x: byte)
    requires i + 2 <= |b| - 1
    ensures Spliced(b, i, b[i + 1 := x], 1, 2, [x])
  {
    var b' := b[i + 1 := x];
    assert b'[i + 1..] == [x] + b[i + 2..];
  }

  /** Skipping `c` bytes that stand for nothing. */
  lemma SplicedDrop(b: seq<byte>, i: nat, c: nat)
    requires 0 < c && i + c <= |b| - 1
    ensures Spliced(b, i, b, c, c, [])
  {
    assert [] + b[i + c..] == b[i + c..];
  }


  /** The bytes minified so far: in place before any escape was replaced,
      afterwards those moved down to `j` followed by the ones after the
      last replacement. */
  function Written(b: seq<byte>, j: nat, start: nat, i: nat): seq<byte>
    requires 1 <= i <= |b| && (start != 0 ==> 1 <= j <= start <= i)
  {
    if start == 0 then b[1..i] else b[1..j] + b[start..i]
  }

  /** Scanning `k` more bytes in place appends them to what is written. */
  lemma WrittenAdvance(b: seq<byte>, j: nat, start: nat, i: nat, k: nat)
    requires 1 <= i && i + k <= |b| && (start != 0 ==> 1 <= j <= start <= i)
    ensures Written(b, j, start, i + k) == Written(b, j, start, i) + b[i..i + k]
  {
    if start == 0 {
      assert b[1..i + k] == b[1..i] + b[i..i + k];
    } else {
      assert b[start..i + k] == b[start..i] + b[i..i + k];
    }
  }

  lemma SliceSplit(b: seq<byte>, i: nat, k: nat, last: nat)
    requires i + k <= last <= |b|
    ensures b[i..last][..k] == b[i..i + k] && b[i..last][k..] == b[i + k..last]
  {
  }

  lemma AppendAssoc(x: seq<byte>, y: seq<byte>, z: seq<byte>)
    ensures (x + y) + z == x + (y + z)
  {
  }

  // ---------------------------------------------------------------------
  // One step of the scan, stated on the buffer
  // ---------------------------------------------------------------------

  /** The scan copies the `k` bytes at `i` of the body unchanged. */
  predicate CopiedStep(b: seq<byte>, i: nat, k: nat, q: byte)
    requires IsQuote(q) && i + k <= |b| - 1
  {
    Rewrite(b[i..|b| - 1], q) == b[i..i + k] + Rewrite(b[i + k..|b| - 1], q)
  }

  /** The scan pushes the `c` bytes at `i` of the body back as `e`. */
  predicate PushedBack(b: seq<byte>, i: nat, c: nat, e: seq<byte>, q: byte)
    requires IsQuote(q) && i + c <= |b| - 1
  {
    Rewrite(b[i..|b| - 1], q) == Rewrite(e + b[i + c..|b| - 1], q)
  }

  /** A plain byte is copied. */
  lemma PlainStep(b: seq<byte>, i: nat, q: byte)
    requires IsQuote(q) && i + 1 < |b| - 1 && b[i] != Backslash
    ensures CopiedStep(b, i, 1, q)
  {
    var s := b[i..|b| - 1];
    SliceSplit(b, i, 1, |b| - 1);
    assert s[..1] == [s[0]];
  }

  /** A kept escape is copied, both its bytes. */
  lemma KeptStep(b: seq<byte>, i: nat, q: byte)
    requires IsQuote(q) && i + 1 < |b| - 1 && b[i] == Backslash
    requires EscapeAction(b[i..|b| - 1], q).Keep?
    ensures CopiedStep(b, i, 2, q)
  {
    var s := b[i..|b| - 1];
    SliceSplit(b, i, 2, |b| - 1);
    assert Rewrite(s, q) == RewriteEscape(s, q);
  }

  /** A replaced escape is pushed back as its replacement. */
  lemma ReplacedStep(b: seq<byte>, i: nat, q: byte)
    requires IsQuote(q) && i + 1 < |b| - 1 && b[i] == Backslash
    requires EscapeAction(b[i..|b| - 1], q).Replace?
    ensures var a := EscapeAction(b[i..|b| - 1], q);
            i + a.consumed <= |b| - 1 && PushedBack(b, i, a.consumed, a.emit, q)
  {
    var s := b[i..|b| - 1];
    var a := EscapeAction(s, q);
    SliceSplit(b, i, a.consumed, |b| - 1);
    assert Rewrite(s, q) == RewriteEscape(s, q);
  }

  /** The scan at a backslash, as the in-place scanner does it, agrees
      with one step of `Rewrite`: a kept escape is copied, a replaced one
      is pushed back in place. */
  method EscapeStep(b: seq<byte>, i: nat, quote: byte) returns (keep: bool, b': seq<byte>, n: nat, ghost c: nat, ghost e: seq<byte>)
    requires IsQuote(quote) && 1 <= i && i + 1 < |b| - 1 && b[i] == Backslash
    ensures keep ==> b' == b && CopiedStep(b, i, 2, quote)
    ensures !keep ==> Spliced(b, i, b', n, c, e) && PushedBack(b, i, c, e, quote)
  {
    keep, b', n := ScanEscape(b, i, quote);
    ghost var a := EscapeAction(b[i..|b| - 1], quote);
    if keep {
      KeptStep(b, i, quote);
      c, e := 2, [];
    } else {
      ReplacedStep(b, i, quote);
      c, e := a.consumed, a.emit;
    }
  }

  // ---------------------------------------------------------------------
  // The scan state and its invariance
  // ---------------------------------------------------------------------

  /** What the scan will have produced once it is done: the bytes written
      so far followed by the minified unscanned rest of the body. */
  function Output(b: seq<byte>, j: nat, start: nat, i: nat, q: byte): seq<byte>
    requires IsQuote(q) && 1 <= i <= |b| - 1 && (start != 0 ==> 1 <= j <= start <= i)
  {
    Written(b, j, start, i) + Rewrite(b[i..|b| - 1], q)
  }

  /** The state of the scan over a token `lit`: `b` is the buffer, `i`
      the next byte to scan, the quotes are in place, and the scan's
      eventual output is the minified body. */
  predicate ScanState(lit: seq<byte>, b: seq<byte>, i: nat, j: nat, start: nat)
    requires 3 <= |lit| && IsQuote(lit[0])
  {
    var last := |lit| - 1;
    && 1 <= i <= last && |b| == |lit| && b[0] == lit[0] && b[last] == lit[last]
    && (start != 0 ==> 1 <= j < start <= i)
    && Output(b, j, start, i, lit[0]) == Rewrite(lit[1..last], lit[0])
  }

  /** Copying `k` bytes in place does not change the eventual output. */
  lemma OutputAdvance(b: seq<byte>, j: nat, start: nat, i: nat, k: nat, q: byte)
    requires IsQuote(q) && 1 <= i && i + k <= |b| - 1 && (start != 0 ==> 1 <= j < start <= i)
    requires CopiedStep(b, i, k, q)
    ensures Output(b, j, start, i + k, q) == Output(b, j, start, i, q)
  {
    WrittenAdvance(b, j, start, i, k);
    AppendAssoc(Written(b, j, start, i), b[i..i + k], Rewrite(b[i + k..|b| - 1], q));
  }

  /** Moves the bytes written since the last replacement, `b[start..i]`,
      down to `j`; before the first replacement nothing moves. Either way
      the written bytes end up at `b'[1..j']` and nothing from `j'` on
      changes. */
  method MoveWritten(b: seq<byte>, j: nat, start: nat, i: nat) returns (b': seq<byte>, j': nat)
    requires 1 <= i <= |b| && (start != 0 ==> 1 <= j < start <= i)
    ensures |b'| == |b| && 1 <= j' <= i && b'[0] == b[0]
    ensures b'[1..j'] == Written(b, j, start, i) && b'[j'..] == b[j'..]
  {
    if start != 0 {
      b', j' := CopyWithin(b, j, start, i - start), j + (i - start);
      assert b'[..j'] == b'[..j] + b'[j..j'];
      assert b'[1..j'] == b'[..j'][1..];
    } else {
      b', j' := b, i;
    }
  }

  /** Only the bytes before `i` make up what is written. */
  lemma WrittenPrefix(b: seq<byte>, b1: seq<byte>, j: nat, start: nat, i: nat)
    requires 1 <= i <= |b| && |b1| == |b| && b1[..i] == b[..i] && (start != 0 ==> 1 <= j < start <= i)
    ensures Written(b1, j, start, i) == Written(b, j, start, i)
  {
    assert forall k | 0 <= k < i :: b1[k] == b1[..i][k] == b[..i][k] == b[k];
    if start != 0 {
      assert b1[1..j] == b[1..j];
      assert b1[start..i] == b[start..i];
    } else {
      assert b1[1..i] == b[1..i];
    }
  }

  /** After the decoded bytes come the bytes that followed the escape, and
      the closing quote is untouched. */
  lemma PendingAfterReplace(b: seq<byte>, b1: seq<byte>, b2: seq<byte>, j2: nat, i: nat, n: nat, c: nat, e: seq<byte>)
    requires n + |e| == c && j2 <= i && i + c < |b| && |b1| == |b| == |b2|
    requires b1[i + n..] == e + b[i + c..] && b2[j2..] == b1[j2..]
    ensures b2[i + n..|b| - 1] == e + b[i + c..|b| - 1]
    ensures b2[|b| - 1] == b[|b| - 1]
  {
    var last := |b| - 1;
    assert b2[i + n..] == b1[i + n..];
    assert b1[i + n..last] == (e + b[i + c..])[..last - (i + n)];
    assert b2[last] == b1[last] == (e + b[i + c..])[last - (i + n)];
  }

  /** An escape of `c` bytes at `i` pushed back in place as `e`, with what
      was written moved down to `j2`, keeps the quotes in place and does
      not change the eventual output. */
  lemma ReplaceOutput(b: seq<byte>, b1: seq<byte>, b2: seq<byte>, j: nat, j2: nat, start: nat, i: nat, n: nat, c: nat, e: seq<byte>, q: byte)
    requires IsQuote(q) && 1 <= i && (start != 0 ==> 1 <= j < start <= i)
    requires Spliced(b, i, b1, n, c, e) && PushedBack(b, i, c, e, q)
    requires |b2| == |b1| && 1 <= j2 <= i && b2[0] == b1[0] && b2[1..j2] == Written(b1, j, start, i) && b2[j2..] == b1[j2..]
    ensures b2[0] == b[0] && b2[|b| - 1] == b[|b| - 1] && 1 <= j2 < i + n <= |b| - 1
    ensures Output(b2, j2, i + n, i + n, q) == Output(b, j, start, i, q)
  {
    var last := |b| - 1;
    assert b1[0] == b1[..i][0];
    WrittenPrefix(b, b1, j, start, i);
    PendingAfterReplace(b, b1, b2, j2, i, n, c, e);
    assert Written(b2, j2, i + n, i + n) == b2[1..j2];
  }

  /** A buffer with the quotes in place and the same eventual output is
      a scan state too. */
  lemma ScanStateTransfer(lit: seq<byte>, b: seq<byte>, i: nat, j: nat, start: nat, b': seq<byte>, i': nat, j': nat, start': nat)
    requires 3 <= |lit| && IsQuote(lit[0]) && ScanState(lit, b, i, j, start)
    requires |b'| == |b| && b'[0] == b[0] && b'[|b| - 1] == b[|b| - 1]
    requires 1 <= i' <= |b| - 1 && (start' != 0 ==> 1 <= j' < start' <= i')
    requires Output(b', j', start', i', lit[0]) == Output(b, j, start, i, lit[0])
    ensures ScanState(lit, b', i', j', start')
  {
  }

  /** A plain byte: the scan moves past it. */
  method StepPlain(lit: seq<byte>, b: seq<byte>, i: nat, j: nat, start: nat) returns (i': nat)
    requires 3 <= |lit| && IsQuote(lit[0]) && ScanState(lit, b, i, j, start) && i + 1 < |lit| - 1
    requires b[i] != Backslash
    ensures ScanState(lit, b, i', j, start) && i' == i + 1
  {
    PlainStep(b, i, lit[0]);
    OutputAdvance(b, j, start, i, 1, lit[0]);
    i' := i + 1;
  }

  /** A kept escape: the scan moves past both its bytes. */
  method StepKeep(lit: seq<byte>, b: seq<byte>, i: nat, j: nat, start: nat) returns (i': nat)
    requires 3 <= |lit| && IsQuote(lit[0]) && ScanState(lit, b, i, j, start) && i + 1 < |lit| - 1
    requires CopiedStep(b, i, 2, lit[0])
    ensures ScanState(lit, b, i', j, start) && i' == i + 2
  {
    OutputAdvance(b, j, start, i, 2, lit[0]);
    i' := i + 2;
  }

  /** A replaced escape: what was written so far is moved down to `j`
      (or, at the first replacement, stays where it is) and the scan
      resumes at the decoded bytes. */
  method StepReplace(lit: seq<byte>, b: seq<byte>, b1: seq<byte>, i: nat, j: nat, start: nat, n: nat, ghost c: nat, ghost e: seq<byte>)
    returns (b': seq<byte>, i': nat, j': nat, start': nat)
    requires 3 <= |lit| && IsQuote(lit[0]) && ScanState(lit, b, i, j, start) && i + 1 < |lit| - 1
    requires Spliced(b, i, b1, n, c, e) && PushedBack(b, i, c, e, lit[0])
    ensures ScanState(lit, b', i', j', start') && i < i' == start'
  {
    b', j' := MoveWritten(b1, j, start, i);
    ReplaceOutput(b, b1, b', j, j', start, i, n, c, e, lit[0]);
    i', start' := i + n, i + n;
    ScanStateTransfer(lit, b, i, j, start, b', i', j', start');
  }

  /** The scan at a backslash: a kept escape is skipped, a replaced one
      is rewritten in place. */
  method StepEscape(lit: seq<byte>, b: seq<byte>, i: nat, j: nat, start: nat) returns (b': seq<byte>, i': nat, j': nat, start': nat)
    requires 3 <= |lit| && IsQuote(lit[0]) && ScanState(lit, b, i, j, start) && i + 1 < |lit| - 1
    requires b[i] == Backslash
    ensures ScanState(lit, b', i', j', start') && i < i'
    ensures start' == 0 ==> start == 0 && b' == b
  {
    var keep, b1, n, c, e := EscapeStep(b, i, lit[0]);
    if keep {
      i' := StepKeep(lit, b, i, j, start);
      return b, i', j, start;
    }
    b', i', j', start' := StepReplace(lit, b, b1, i, j, start, n, c, e);
  }

  /** One iteration of the scan: a plain byte is copied, an escape is
      kept or replaced. Until the first replacement the buffer is left
      as it is. */
  method Step(lit: seq<byte>, b: seq<byte>, i: nat, j: nat, start: nat) returns (b': seq<byte>, i': nat, j': nat, start': nat)
    requires 3 <= |lit| && IsQuote(lit[0]) && ScanState(lit, b, i, j, start) && i + 1 < |lit| - 1
    ensures ScanState(lit, b', i', j', start') && i < i'
    ensures start' == 0 ==> start == 0 && b' == b
  {
    if b[i] != Backslash {
      i' := StepPlain(lit, b, i, j, start);
      return b, i', j, start;
    }
    b', i', j', start' := StepEscape(lit, b, i, j, start);
  }

  // ---------------------------------------------------------------------
  // Start and end of the scan
  // ---------------------------------------------------------------------

  /** The scan starts after the opening quote with nothing written. */
  lemma ScanStart(lit: seq<byte>)
    requires 3 <= |lit| && IsQuote(lit[0])
    ensures ScanState(lit, lit, 1, 0, 0)
  {
    assert Written(lit, 0, 0, 1) == [];
    assert Output(lit, 0, 0, 1, lit[0]) == Rewrite(lit[1..|lit| - 1], lit[0]);
  }

  /** When the scan stops after a replacement, moving the rest down after
      the written bytes gives the quotes around the written bytes and the
      unscanned rest. */
  lemma FinishMoved(b: seq<byte>, j: nat, start: nat, i: nat)
    requires 1 <= j < start <= i <= |b| - 1
    ensures CopyWithin(b, j, start, |b| - start)[..j + (|b| - start)]
            == [b[0]] + (Written(b, j, start, i) + b[i..|b| - 1]) + [b[|b| - 1]]
  {
    var last := |b| - 1;
    var c := CopyWithin(b, j, start, |b| - start);
    assert c[..j + (|b| - start)] == b[..j] + b[start..];
    assert b[..j] == [b[0]] + b[1..j];
    assert b[start..] == (b[start..i] + b[i..last]) + [b[last]];
    Regroup([b[0]], b[1..j], b[start..i], b[i..last], [b[last]]);
  }

  lemma Regroup(x0: seq<byte>, x1: seq<byte>, x2: seq<byte>, x3: seq<byte>, x4: seq<byte>)
    ensures (x0 + x1) + ((x2 + x3) + x4) == x0 + ((x1 + x2) + x3) + x4
  {
  }

  /** Without a replacement the buffer is the token itself. */
  lemma FinishInPlace(b: seq<byte>, i: nat)
    requires 1 <= i <= |b| - 1
    ensures b == [b[0]] + (Written(b, 0, 0, i) + b[i..|b| - 1]) + [b[|b| - 1]]
  {
    assert b == [b[0]] + b[1..i] + b[i..|b| - 1] + [b[|b| - 1]];
  }

  /** When the scan stops, moving the unscanned rest and the closing quote
      down after what was written gives the minified token. */
  lemma ScanFinish(lit: seq<byte>, b: seq<byte>, i: nat, j: nat, start: nat)
    requires 3 <= |lit| && IsQuote(lit[0]) && ScanState(lit, b, i, j, start) && |lit| - 1 <= i + 1
    ensures start != 0 ==> CopyWithin(b, j, start, |b| - start)[..j + (|b| - start)]
                           == [lit[0]] + Rewrite(lit[1..|lit| - 1], lit[0]) + [lit[|lit| - 1]]
    ensures start == 0 ==> b == [lit[0]] + Rewrite(lit[1..|lit| - 1], lit[0]) + [lit[|lit| - 1]]
  {
    var last := |b| - 1;
    assert Rewrite(b[i..last], lit[0]) == b[i..last];
    if start != 0 {
      FinishMoved(b, j, start, i);
    } else {
      FinishInPlace(b, i);
    }
  }

  /** The end of minifyString: the bytes after the last replacement,
      closing quote included, are moved down and the buffer cut there. */
  method Finish(lit: seq<byte>, b: seq<byte>, i: nat, j: nat, start: nat) returns (r: seq<byte>)
    requires 3 <= |lit| && IsQuote(lit[0]) && ScanState(lit, b, i, j, start) && |lit| - 1 <= i + 1
    ensures r == [lit[0]] + Rewrite(lit[1..|lit| - 1], lit[0]) + [lit[|lit| - 1]]
  {
    ScanFinish(lit, b, i, j, start);
    if start != 0 {
      var b' := CopyWithin(b, j, start, |b| - start);
      return b'[..j + (|b| - start)];
    }
    return b;
  }

  /** minifyString: the token with its body minified by `Rewrite`, the
      quotes kept. Tokens shorter than three bytes are returned as they
      are. */
  method MinifyString(lit: seq<byte>) returns (r: seq<byte>)
    requires 3 <= |lit| ==> IsQuote(lit[0])
    ensures |lit| < 3 ==> r == lit
    ensures 3 <= |lit| ==> r == [lit[0]] + Rewrite(lit[1..|lit| - 1], lit[0]) + [lit[|lit| - 1]]
    ensures |r| <= |lit| && (3 <= |lit| ==> r[0] == lit[0] && r[|r| - 1] == lit[|lit| - 1])
    ensures 3 <= |lit| && Minimal(lit[1..|lit| - 1], lit[0]) ==> r == lit
    ensures 3 <= |lit| && RescanSafe(Decode(lit[1..|lit| - 1])) ==> Minimal(r[1..|r| - 1], r[0])
  {
    if |lit| < 3 {
      return lit;
    }
    var b := lit;
    var i: nat, j: nat, start: nat := 1, 0, 0;
    ScanStart(lit);
    while i + 1 < |b| - 1
      invariant ScanState(lit, b, i, j, start)
      invariant start == 0 ==> b == lit
      decreases |b| - i
    {
      b, i, j, start := Step(lit, b, i, j, start);
    }
    r := Finish(lit, b, i, j, start);
    MinimalTokenUnchanged(lit);
    if RescanSafe(Decode(lit[1..|lit| - 1])) {
      MinifyTwiceIsOnce(lit);
    }
  }

  /** A token whose every escape is kept minifies to itself. */
  lemma MinimalTokenUnchanged(lit: seq<byte>)
    requires 3 <= |lit| && IsQuote(lit[0])
    ensures Minimal(lit[1..|lit| - 1], lit[0]) ==>
              [lit[0]] + Rewrite(lit[1..|lit| - 1], lit[0]) + [lit[|lit| - 1]] == lit
  {
    RewriteFixedIffMinimal(lit[1..|lit| - 1], lit[0]);
    assert lit == [lit[0]] + lit[1..|lit| - 1] + [lit[|lit| - 1]];
  }
}

=== FILE: tokens.dfy ===
/** The token kinds the analysis layer inspects and the precedence levels
    it ranks expressions by. Both belong to the external JavaScript parser;
    only the kinds this layer looks at are listed, and every other kind
    is `OtherToken`. */
module Tokens {

  datatype Token =
    // update operators
    | PostIncr | PostDecr | PreIncr | PreDecr
    // other unary operators (Add and Sub double as binary operators)
    | Not | BitNot | Typeof | Void | Delete | Await
    // assignment operators
    | Eq | MulEq | DivEq | ModEq | ExpEq | AddEq | SubEq
    | LtLtEq | GtGtEq | GtGtGtEq | BitAndEq | BitXorEq | BitOrEq
    // binary operators
    | Exp | Mul | Div | Mod | Add | Sub | LtLt | GtGt | GtGtGt
    | Lt | LtEq | Gt | GtEq | In | Instanceof
    | EqEq | NotEq | EqEqEq | NotEqEq
    | BitAnd | BitXor | BitOr | And | Or | Nullish | Comma
    // literal kinds
    | TrueLit | FalseLit | NullLit | StringLit | DecimalLit
    | BinaryLit | OctalLit | HexLit | BigIntLit
    | OtherToken

  /** Precedence levels, weakest binding first. */
  datatype OpPrec =
    | OpExpr | OpAssign | OpCoalesce | OpOr | OpAnd | OpBitOr | OpBitXor
    | OpBitAnd | OpEquals | OpCompare | OpShift | OpAdd | OpMul | OpExp
    | OpUnary | OpUpdate | OpLHS | OpMember | OpPrimary
  {
    /** The position of the level in the order; the zero value is OpExpr. */
    function Rank(): nat {
      match this
      case OpExpr => 0
      case OpAssign => 1
      case OpCoalesce => 2
      case OpOr => 3
      case OpAnd => 4
      case OpBitOr => 5
      case OpBitXor => 6
      case OpBitAnd => 7
      case OpEquals => 8
      case OpCompare => 9
      case OpShift => 10
      case OpAdd => 11
      case OpMul => 12
      case OpExp => 13
      case OpUnary => 14
      case OpUpdate => 15
      case OpLHS => 16
      case OpMember => 17
      case OpPrimary => 18
    }
  }

  /** `a` binds strictly more weakly than `b`. */
  predicate Below(a: OpPrec, b: OpPrec) {
    a.Rank() < b.Rank()
  }

  /** The order is total and strict: two levels of the same rank are the
      same level. */
  lemma RankInjective(a: OpPrec, b: OpPrec)
    ensures a.Rank() == b.Rank() <==> a == b
    ensures Below(a, b) || a == b || Below(b, a)
  {
  }

  /** The operators that have an entry in the two unary tables. */
  predicate IsUnaryOperator(t: Token) {
    t in {PostIncr, PostDecr, PreIncr, PreDecr, Not, BitNot, Typeof, Void, Delete, Add, Sub, Await}
  }

  predicate IsAssignment(t: Token) {
    t in {Eq, MulEq, DivEq, ModEq, ExpEq, AddEq, SubEq, LtLtEq, GtGtEq, GtGtGtEq, BitAndEq, BitXorEq, BitOrEq}
  }

  /** The operators that have an entry in the three binary tables. */
  predicate IsBinaryOperator(t: Token) {
    || IsAssignment(t)
    || t in {Exp, Mul, Div, Mod, Add, Sub, LtLt, GtGt, GtGtGt, Lt, LtEq, Gt, GtEq, In, Instanceof}
    || t in {EqEq, NotEq, EqEqEq, NotEqEq, BitAnd, BitXor, BitOr, And, Or, Nullish, Comma}
  }

  /** The relational and equality operators, whose results are booleans. */
  predicate IsComparison(t: Token) {
    t in {Lt, LtEq, Gt, GtEq, In, Instanceof, EqEq, NotEq, EqEqEq, NotEqEq}
  }
}
